=== FILE: README.md ===
# UK–Africa procurement readiness: a Dafny model of the scoring core

This project models the data core of the UK–Africa aviation and tourism
procurement-readiness dashboard. It covers five parts:

- **Per-record scoring** (`scripts/scoring.py`, `score_entry`). A score is
  30 points for a HIGH governance flag, 40 for an AI-procurement index above
  0.7, and 20 for the Aviation or Tourism sector.
- **Table scoring** (`scripts/scoring.py`, `compute_scores`). The three
  flow tables are outer-joined on (country, year) and missing measures are
  filled with 0. A key is flagged HIGH when its passenger volume is above
  the median. The optional AI-index table is left-joined, with 0.5 as the
  default. Each key then gets one Aviation and one Tourism opportunity row.
- **The flag-based pipeline** (`scripts/pipeline.py`). It covers:
  - `flags_from_row` and the seven-column validation;
  - the per-row AI index, rounded to one decimal after scaling by 100;
  - the per-country mean governance score, which decides HIGH or LOW;
  - the four writes, and the `(None, None)` failure returns.
- **The loaders' column checks** (`scripts/data_loader.py`). A table
  missing a required column becomes the empty table. The opportunity table
  also accepts its legacy schema.
- **The two headline totals** (`scripts/metrics.py`) and the dashboard's
  country options and country filter (`app.py`).

Tables are immutable values. A `Frame` is a set of column names plus a
sequence of rows; a row maps column names to cells. A cell is text, a
number, a boolean or `Missing` (pandas' NaN). File reads arrive as
`Option<Frame>`, where `None` means the file is missing or cannot be read. The two scorers
`pipeline.py` imports, `calculate_ai_procurement_index` and
`governance_score`, are not part of this model. They are passed in as
function parameters. `scripts/scoring.py` defines neither of them, so the
import at `scripts/pipeline.py:10` fails as the code stands; the model
describes the pipeline as it would run with some definition of each.

Modules, one per file:

- `Wrappers`: `Option`.
- `TextOrder`: Python's string order.
- `Sorting`: strictly sorted, duplicate-free sequences, as produced by
  `sorted(set(...))` and by the sorted keys of an outer merge.
- `Statistics`: sort and median of reals, as `Series.median`.
- `Frames`: cells, rows, tables and Python truthiness.
- `Scoring`: `score_entry` and `compute_scores`.
- `DataLoader`: the loaders.
- `Metrics`: the totals.
- `Pipeline`: `flags_from_row` and `run_scoring_pipeline`.
- `Dashboard`: the country options and `filter_df`.

Some points of the code's behaviour are easy to misread. The model follows
the code on each:

- Only the sector strings `'Aviation'` and `'Tourism'` earn the sector
  bonus; `'Tourism & Hospitality'` does not.
- Only `'High'` and `'HIGH'` earn the governance bonus.
- The outer merge returns its keys sorted, not in input order. This is the
  behaviour of `how="outer"` from pandas 2.2 on. Earlier pandas versions may
  keep first-appearance order, which the model does not cover.

## Model

| member | source | states |
|---|---|---|
| Scoring.ScoreEntry | scripts/scoring.py:25-39 | The score lies between 0 and 90. It is 90 exactly when all three conditions hold, and 0 exactly when none holds. |
| Scoring.BonusesRecoverableFromScore | scripts/scoring.py:25-39 | The three bonuses are independent. The score alone tells which conditions held. |
| Scoring.ConditionsAreStrict | scripts/scoring.py:28-37 | A lower-case `'high'` flag earns nothing. An index of exactly 0.7 earns nothing, and so does a missing index, which defaults to 0. The sector `'Tourism & Hospitality'` earns nothing. |
| Scoring.ValueFor | scripts/scoring.py:58-71 | A measure is found for a key exactly when some row of the table has that key. |
| Scoring.ValueForRow | scripts/scoring.py:58-71 | When keys are unique, the lookup of a row's key returns that row's own measure. |
| Scoring.MergedKeys | scripts/scoring.py:58-66 | The merged keys are strictly ascending (country in string order, then year), and they are exactly the union of the three tables' keys. |
| Scoring.MergedRowFor | scripts/scoring.py:58-71 | The merged row carries the key. When a table has the key, the row's measure for that table is the table's value for it. When the table lacks the key, the measure is 0. This holds for passengers, cargo and tourism alike. |
| Scoring.OuterJoin | scripts/scoring.py:58-71 | The join has one row per merged key, carrying that key. |
| Scoring.OuterJoinCarriesMeasures | scripts/scoring.py:58-71 | In every joined row, each table that has the row's key supplies that measure: passengers, cargo and tourism. |
| Scoring.MergedKeyFromSomeTable | scripts/scoring.py:58-66 | Every merged row's key comes from at least one of the three tables. |
| Scoring.OuterJoinKeepsEveryRow | scripts/scoring.py:58-71 | No key appears twice in the join. Every passenger row appears with its own volume. |
| Scoring.OuterJoinKeepsCargoAndTourismRows | scripts/scoring.py:58-71 | Every cargo row appears in the join with its own tonnage, and every tourism row with its own tourist count. |
| Scoring.TourismOnlyKeyIsZeroFilled | scripts/scoring.py:58-71 | A key found only in the tourism table gets passenger volume 0 and cargo 0. |
| Scoring.GovernanceFlag | scripts/scoring.py:77-80 | The flag is HIGH exactly when a median exists and the volume is strictly above it. Otherwise it is LOW, which covers NaN against an empty column. |
| Scoring.GovernanceTable | scripts/scoring.py:77-83 | There is one governance row per merged row, with the same country and year. Each row is HIGH exactly when its volume is above the median of all volumes. |
| Scoring.CountHighIsCountAbove | scripts/scoring.py:77-80 | The number of HIGH rows equals the number of volumes above the median. |
| Scoring.AtMostHalfHigh | scripts/scoring.py:77-80 | At most half of the merged keys are flagged HIGH. |
| Scoring.EqualVolumesAllLow | scripts/scoring.py:77-80 | When every volume is equal, every key is LOW. |
| Scoring.AiIndexFor | scripts/scoring.py:89-97 | With no AI-index table, or a key absent from it, the index is 0.5. |
| Scoring.AiIndexFromTable | scripts/scoring.py:89-95 | A key present in the AI-index table gets that table's value. |
| Scoring.SectorRowScores | scripts/scoring.py:105-136 | For a HIGH or LOW flag, both sector rows score 20, plus 30 if HIGH, plus 40 if the index is above 0.7. |
| Scoring.Opportunities | scripts/scoring.py:105-139 | There are two opportunity rows per scored row, at positions 2i and 2i+1. The first is Aviation and the second is Tourism, each scored by `score_entry`. |
| Scoring.ScoreMerged | scripts/scoring.py:77-139 | For any merged table, there is one governance row per merged row, HIGH exactly when its volume is above the median. There are two opportunity rows per merged row, Aviation then Tourism, with equal scores. That score is 20, plus 30 for HIGH, plus 40 for an AI index above 0.7. |
| Scoring.ComputeScores | scripts/scoring.py:42-141 | Both tables follow the merged order, and the governance flag follows the median rule. Each key gets an Aviation and a Tourism row with equal scores. That score is 20, plus 30 for HIGH, plus 40 for an AI index above 0.7. |
| Scoring.NoAiTableNoIndexBonus | scripts/scoring.py:95-136 | Without an AI-index table, every opportunity score is 20 or 50. |
| Scoring.NoIndexBonusWithoutTable | scripts/scoring.py:95-136 | When there is no AI-index table, every opportunity score of any merged table is 20 or 50. |
| TextOrder.LexLessIrreflexive | app.py:149-160 | No string is below itself in the order that `sorted` uses. |
| TextOrder.LexLessTransitive | app.py:149-160 | The string order is transitive. |
| TextOrder.LexLessTotal | app.py:149-160 | Of two distinct strings, one is below the other. |
| Sorting.InsertUnique | scripts/scoring.py:58-66 | Inserting into a strictly sorted sequence keeps it strictly sorted and adds exactly the one element. |
| Sorting.SortUnique | app.py:149-160 | `sorted(set(xs))` is strictly sorted and has exactly the elements of `xs`. |
| Sorting.StrictlySortedUnique | app.py:149-160 | Two strictly sorted sequences with the same elements are equal. |
| Sorting.StrictlySortedDistinct | app.py:149-160 | A strictly sorted sequence has no repeated element. |
| Statistics.Insert | scripts/scoring.py:77 | Inserting into an ascending sequence keeps it ascending and adds exactly that value, counted with multiplicity. |
| Statistics.Sort | scripts/scoring.py:77 | The sort is an ascending permutation of its input. |
| Statistics.SortAscending | scripts/scoring.py:77 | Sorting an already ascending sequence returns it unchanged. |
| Statistics.Median | scripts/scoring.py:77 | The median exists exactly when the column is non-empty. This models NaN for an empty column. |
| Statistics.MedianSplitsInHalf | scripts/scoring.py:77 | At most half the values lie strictly above the median, and at most half strictly below. |
| Statistics.MedianOfConstant | scripts/scoring.py:77 | The median of a constant column is that constant. |
| Statistics.MedianWithinValues | scripts/scoring.py:77 | The median of a non-empty column lies between its smallest and its largest value. For an odd count it is one of the values. |
| Statistics.MedianOfFourAscending | scripts/scoring.py:77 | The median of four ascending values is the mean of the second and third. |
| Statistics.MedianOfFourExample | scripts/scoring.py:77 | The median of 10, 20, 30, 40 is 25. |
| Statistics.CountsSort | scripts/scoring.py:77 | Sorting changes neither the count above nor the count below a value. |
| DataLoader.Validated | scripts/data_loader.py:15-22 | A table with every required column is returned unchanged. A missing file, or one lacking a column, gives the empty table. |
| DataLoader.ValidatedIdempotent | scripts/data_loader.py:15-22 | Validating an already validated table changes nothing. |
| DataLoader.LoadPassengerFlow | scripts/data_loader.py:7-22 | The table is accepted exactly when it has `country`, `year` and `passenger_volume`. Otherwise the result is empty. |
| DataLoader.LoadCargoFlow | scripts/data_loader.py:26-41 | The table is accepted exactly when it has `country`, `year` and `cargo_tonnage`. Otherwise the result is empty. |
| DataLoader.LoadTourismInbound | scripts/data_loader.py:45-60 | The table is accepted exactly when it has `country`, `year` and `inbound_tourists`. Otherwise the result is empty. |
| DataLoader.LoadGovernanceFlags | scripts/data_loader.py:64-80 | The table is accepted exactly when it has `country`, `year` and `governance_flag`. Otherwise the result is empty. |
| DataLoader.LoadOpportunityScores | scripts/data_loader.py:84-104 | The current four-column schema is accepted. Failing that, the legacy schema is accepted. Otherwise the result is empty. |
| Metrics.TruncateToInt | scripts/metrics.py:8 | `int()` truncates toward zero: the result is the integer part of the value, on either side of zero. |
| Metrics.CalculateTotalPassengers | scripts/metrics.py:4-8 | The total is 0 for an empty table or one without the column. Otherwise it is the passenger sum truncated to an integer. |
| Metrics.CalculateTotalCargo | scripts/metrics.py:11-15 | The total is 0 for an empty table or one without the column. Otherwise it is the cargo sum truncated to an integer. |
| Metrics.TotalCargoIsFloorOfSum | scripts/metrics.py:11-15 | With non-negative tonnages, the total is non-negative and is the floor of the sum. |
| Metrics.ColumnSumAppend | scripts/metrics.py:8 | The sum over two blocks of rows is the sum of the two block sums. |
| Metrics.ColumnSumNonNegative | scripts/metrics.py:8 | A column of non-negative cells has a non-negative sum. |
| Metrics.TotalPassengersIsFloorOfSum | scripts/metrics.py:4-8 | With non-negative volumes, the total is non-negative and is the floor of the sum. |
| Dashboard.CountryValues | app.py:149-160 | A table without a `country` column contributes no countries. Otherwise it contributes its country cells in row order. |
| Dashboard.CountryOptions | app.py:149-160 | The first option is "All". The rest are strictly ascending, and a country is among them exactly when some loaded table has it. |
| Dashboard.CountryOptionsCanonical | app.py:149-160 | The options are "All" followed by the only strictly ascending list of exactly those countries. |
| Dashboard.KeepCountry | app.py:162-165 | The kept rows are no more than the input rows, and every one of them is in the selected country. |
| Dashboard.LoadedTablesFilterable | scripts/data_loader.py:7-104 | Every table a loader returns is either the empty table or has a `country` column, so `filter_df` accepts it with any selection. |
| Dashboard.FilterFrame | app.py:162-165 | The columns are kept. "All" or an empty table gives the table itself. Otherwise each row of the selected country is kept as often as it occurs, and every other row is dropped. |
| Dashboard.KeepCountryCounts | app.py:162-165 | A row of the selected country is kept with its multiplicity. Any other row has multiplicity 0. |
| Dashboard.KeepCountryAppend | app.py:162-165 | Filtering distributes over concatenation, so row order is kept. |
| Dashboard.KeepCountryIdempotent | app.py:162-165 | Filtering the kept rows again keeps all of them. |
| Dashboard.FilterFrameIdempotent | app.py:162-165 | Filtering twice by the same selection is the same as filtering once. |
| Dashboard.KeepCountrySumAtMost | app.py:162-165 | With non-negative cells, the sum over the kept rows is at most the sum over all rows. |
| Dashboard.FilteredPassengersAtMostTotal | app.py:162-165 | This combines `calculate_total_passengers` from `scripts/metrics.py` with `filter_df`. With non-negative passenger volumes and no text cells, one country's total never exceeds the total over all countries. The dashboard itself sums the filtered column with `.sum()` at `app.py:188`, without `int()`. |
| Pipeline.FlagsFromRow | scripts/pipeline.py:13-20 | The flags are exactly the four flag names. Each is the Python truthiness of its cell, and a missing cell reads as NaN. |
| Pipeline.MissingFlagReadsAsSet | scripts/pipeline.py:13-20 | An empty flag cell is NaN, and `bool(NaN)` is true, so the flag counts as set. |
| Pipeline.RowIndices | scripts/pipeline.py:61-72 | The indices exist exactly when every row's modifier converts with `float`. They then come in row order, one per row. |
| Pipeline.ModifierDefaultUnused | scripts/pipeline.py:51-68 | Validation requires `country_modifier`, so the 1.0 default of `row.get` is never used. |
| Pipeline.RowIndexIsLocal | scripts/pipeline.py:64-69 | The index depends only on the row's sector, flags and modifier. |
| Pipeline.Round1 | scripts/pipeline.py:84 | The result is within 0.05 of the input and is a whole number of tenths. |
| Pipeline.Round1Idempotent | scripts/pipeline.py:84 | Rounding a rounded score changes nothing. |
| Pipeline.Round1TiesToEven | scripts/pipeline.py:84 | Halfway cases go to the even tenth: 0.25 becomes 0.2 and 0.35 becomes 0.4. |
| Pipeline.OpportunityTable | scripts/pipeline.py:80-85 | There is one opportunity row per input row, in row order. It carries the row's country and sector and year 2023. Its score is within 0.05 of 100 times the row's index and is a whole number of tenths. |
| Pipeline.OpportunityTableConcat | scripts/pipeline.py:75-85 | The opportunity rows of the two concatenated tables are the aviation rows followed by the tourism rows. |
| Pipeline.Unique | scripts/pipeline.py:91 | `unique()` has exactly the values of the column, none of them twice. |
| Pipeline.UniqueCovers | scripts/pipeline.py:91 | Every value of the column sits at some position of `unique()`, and nothing else does. |
| Pipeline.FirstIndex | scripts/pipeline.py:91 | This is the position of a value's first occurrence. |
| Pipeline.UniqueFirstAppearanceOrder | scripts/pipeline.py:91 | `unique()` lists values in the order of their first appearance. |
| Pipeline.MeanAtLeast | scripts/pipeline.py:101-104 | For a positive count, the mean reaches a threshold exactly when the sum reaches the threshold times the count. |
| Pipeline.CountryFlag | scripts/pipeline.py:92-104 | The flag is HIGH exactly when the country has rows and the sum of their scores is at least 0.5 times their count. Otherwise it is LOW. |
| Pipeline.GovernanceTable | scripts/pipeline.py:89-112 | A country appears in the table exactly when some row has it, and no country appears twice. The rows follow the order of first appearance, all for year 2023. A country is HIGH exactly when it has rows and their score sum is at least 0.5 times their count, which is a mean of at least 0.5. |
| Pipeline.MatchCountZeroForMissing | scripts/pipeline.py:92-101 | A NaN country matches no row, because NaN never equals NaN. |
| Pipeline.MissingCountryIsLow | scripts/pipeline.py:92-104 | A NaN country has mean 0 and is LOW. |
| Pipeline.SumAtLeastThreshold | scripts/pipeline.py:94-104 | If every row of a country scores at least 0.5, the sum is at least 0.5 times the count. |
| Pipeline.SumBelowThreshold | scripts/pipeline.py:94-104 | If every row of a country scores below 0.5, the sum is below 0.5 times the count. |
| Pipeline.FlagFollowsRowScores | scripts/pipeline.py:94-104 | A country whose rows all score at least 0.5 is HIGH. One whose rows all score below 0.5 is LOW. |
| Pipeline.GovernanceAcrossSectors | scripts/pipeline.py:75-104 | The country mean is taken over the aviation and tourism rows together. Sums and counts add up across the two tables. |
| Pipeline.WritesUntilFailure | scripts/pipeline.py:114-140 | The files written are a prefix of the four outputs, and every one was writable. The first unwritten file is the one that failed. All four are written exactly when all four are writable. |
| Pipeline.ScoreTables | scripts/pipeline.py:59-112 | The tables are produced exactly when every modifier of both inputs converts. |
| Pipeline.ScoreTablesOpportunityRows | scripts/pipeline.py:59-85 | When every modifier converts, the tables are produced. The opportunity rows are then the aviation rows' records followed by the tourism rows' records. |
| Pipeline.RunScoringPipeline | scripts/pipeline.py:23-140 | A missing file gives `(None, None)` with nothing written, and so does a table lacking a required column. Tables are returned exactly when all four outputs were written. |
| Pipeline.PipelineSucceedsExactly | scripts/pipeline.py:42-140 | The run succeeds exactly when both files exist, both validate, every modifier converts and every output is writable. A failure before the writes writes nothing. |
| Pipeline.PipelineOpportunityRows | scripts/pipeline.py:42-136 | When both tables validate, every modifier converts and every output is writable, the run returns its tables. Opportunity row i then carries input row i's country, year 2023, its sector, and its index times 100 rounded, with aviation rows first. |
| Pipeline.PipelineGovernanceRows | scripts/pipeline.py:42-136 | When both tables validate, every modifier converts and every output is writable, the run returns its tables. The governance table lists each distinct country of the two tables once, in order of first appearance, for year 2023. A country is HIGH exactly when its combined score sum is at least 0.5 times its combined row count. |

## Left out

- Pipeline.FlagsFromRow: reads a flag column the row lacks as NaN, where Python raises `KeyError`. The pipeline calls it only on validated tables, which have all four flag columns.
- Scoring.ComputeScores: requires that no table repeats a (country, year) key. With duplicate keys pandas multiplies the rows of the merge, and this model does not cover that.
- Metrics.CalculateTotalPassengers: requires a column without text cells. On such a column pandas either raises or concatenates the text, and then `int()` raises unless the text parses as an integer. The model does not cover either path.
- Metrics.CalculateTotalCargo: requires a column without text cells, for the same reason.
- Metrics.CalculateTotalPassengers: sums exact reals. pandas sums binary floats, and the accumulated rounding error can leave a sum just below a whole number that `int()` then truncates one lower. That difference is not modelled.
- Metrics.CalculateTotalCargo: sums exact reals, so the same float accumulation error before `int()` is not modelled. For tonnages 0.2, 0.7 and 0.1 the float sum falls just below 1, so the code's total would be 0 where the model's is 1.
- Pipeline.CountryFlag: the governance sum and mean are exact reals. The loop at `scripts/pipeline.py:93-104` accumulates binary floats, and a mean that is exactly 0.5 in reals can come out just below 0.5 and turn HIGH into LOW. In double-precision arithmetic the scores 0.6, 0.7 and 0.2 give such a mean. The model does not cover it.
- Scoring.ComputeScores: a measure or index cell is a real number, so an empty (NaN) cell of a key that is present cannot be represented. Callers fill such cells first, with 0 for a volume and 0.5 for an AI index. This gives the same result as the `fillna(0)` calls at `scripts/scoring.py:69-71` and the `fillna(0.5)` at `scripts/scoring.py:95`.
- Pipeline.RowIndices: treats every text cell in `country_modifier` as failing `float()`. Numeric-looking text such as `"1.2"` converts in Python, and the model does not parse it.
- Pipeline.Round1: rounds exact reals. Binary floating-point error in `round(1)` and in the median is not modelled.
- Opaque scorer outputs are always real numbers here. A NaN or infinite result from `calculate_ai_procurement_index` or `governance_score` is not modelled.
- The bodies of `calculate_ai_procurement_index` and `governance_score` are not part of this model. They are parameters.
- Reading CSV files, pandas' type inference, and the contents of the written files are left out. The writes are modelled only as the list of file names that succeed.
- The error message `run_scoring_pipeline` prints in its broad `except` is left out. The model records only that the run returned `(None, None)` and which files were written by then. Exceptions other than a missing file, a missing column, a failed `float()` and a failed write are not modelled.
- The governance table the pipeline writes and the one the dashboard loads may have different file names and columns. The model does not relate the two.
- Dashboard.CountryValues: requires every country cell to be text, although `df.get('country')` returns numeric and NaN cells too. Such cells are not modelled.
- Dashboard.CountryOptions: requires every country cell to be text. Python's `sorted` raises on mixed types, and NaN countries would sort unpredictably; neither case is modelled.
- A country literally named "All" is shadowed by the "All" option, as in `app.py`. The model keeps that behaviour and proves nothing about it.
- `scripts/generate_scores.py` repeats the per-row index computation with the same `calculate_ai_procurement_index` scorer, and is not part of this model.
- The Streamlit rendering and charts of `app.py` are left out, as are the `st.cache_data` caching and the `st.error` boxes of `scripts/data_loader.py`. The exception `app.py:131-134` swallows when running the pipeline is left out too.

=== FILE: dashboard.dfy ===
/**
 * The two computations of app.py that are not rendering: the country
 * selector's option list and the per-country row filter applied to every
 * table before it is shown.
 */
module Dashboard {
  import opened Frames
  import opened TextOrder
  import opened Sorting
  import opened Metrics
  import opened Wrappers
  import DataLoader

  const All: string := "All"

  /** `sorted` compares country values with each other, which requires them all to be strings. */
  predicate CountriesAreText(f: Frame) {
    "country" in f.columns ==> forall i :: 0 <= i < |f.rows| ==> Cell(f.rows[i], "country").Text?
  }

  /** `df.get("country", [])`: the country column, or nothing when the table has none. */
  function CountryValues(f: Frame): (cs: seq<string>)
    requires CountriesAreText(f)
    ensures "country" !in f.columns ==> cs == []
    ensures "country" in f.columns ==>
      |cs| == |f.rows| && forall i :: 0 <= i < |f.rows| ==> Cell(f.rows[i], "country") == Text(cs[i])
  {
    if "country" !in f.columns then []
    else seq(|f.rows|, i requires 0 <= i < |f.rows| => Cell(f.rows[i], "country").s)
  }

  lemma LexLessStrictTotalOn(xs: set<string>)
    ensures StrictTotalOn(LexLess, xs)
  {
    forall a | a in xs ensures !LexLess(a, a) {
      LexLessIrreflexive(a);
    }
    forall a, b | a in xs && b in xs && a != b ensures LexLess(a, b) || LexLess(b, a) {
      LexLessTotal(a, b);
    }
    forall a, b, c | a in xs && b in xs && c in xs && LexLess(a, b) && LexLess(b, c) ensures LexLess(a, c) {
      LexLessTransitive(a, b, c);
    }
  }

  /** `["All"] + sorted(set(...) | set(...) | set(...) | set(...))`. */
  function CountryOptions(passenger: Frame, cargo: Frame, governance: Frame, opportunity: Frame): (options: seq<string>)
    requires CountriesAreText(passenger) && CountriesAreText(cargo)
    requires CountriesAreText(governance) && CountriesAreText(opportunity)
    ensures |options| >= 1 && options[0] == All
    ensures StrictlySorted(LexLess, options[1..])
    ensures forall c :: c in options[1..] <==>
      c in CountryValues(passenger) || c in CountryValues(cargo)
      || c in CountryValues(governance) || c in CountryValues(opportunity)
  {
    var all := CountryValues(passenger) + CountryValues(cargo) + CountryValues(governance) + CountryValues(opportunity);
    LexLessStrictTotalOn(Elements(all));
    var countries := SortUnique(LexLess, all);
    assert forall c :: c in countries <==> c in Elements(countries);
    assert forall c :: c in all <==> c in Elements(all);
    assert ([All] + countries)[1..] == countries;
    [All] + countries
  }

  /** The option list is canonical: the only strictly ascending list of exactly those countries. */
  lemma CountryOptionsCanonical(passenger: Frame, cargo: Frame, governance: Frame, opportunity: Frame, countries: seq<string>)
    requires CountriesAreText(passenger) && CountriesAreText(cargo)
    requires CountriesAreText(governance) && CountriesAreText(opportunity)
    requires StrictlySorted(LexLess, countries)
    requires forall c :: c in countries <==>
      c in CountryValues(passenger) || c in CountryValues(cargo)
      || c in CountryValues(governance) || c in CountryValues(opportunity)
    ensures CountryOptions(passenger, cargo, governance, opportunity) == [All] + countries
  {
    var options := CountryOptions(passenger, cargo, governance, opportunity);
    var sorted := options[1..];
    assert Elements(sorted) == Elements(countries);
    LexLessStrictTotalOn(Elements(sorted));
    StrictlySortedUnique(LexLess, sorted, countries);
    assert options == [options[0]] + sorted;
  }

  /** `df["country"] == selected`: NaN and numbers never equal a string. */
  predicate InCountry(row: Row, selected: string) {
    Cell(row, "country") == Text(selected)
  }

  function KeepCountry(rows: seq<Row>, selected: string): (kept: seq<Row>)
    ensures |kept| <= |rows|
    ensures forall i :: 0 <= i < |kept| ==> InCountry(kept[i], selected)
  {
    if |rows| == 0 then []
    else if InCountry(rows[0], selected) then [rows[0]] + KeepCountry(rows[1..], selected)
    else KeepCountry(rows[1..], selected)
  }

  /** `filter_df`: the table itself for "All" or an empty table, else its rows of that country. */
  function FilterFrame(f: Frame, selected: string): (r: Frame)
    requires selected == All || IsEmpty(f) || "country" in f.columns
    ensures r.columns == f.columns
    ensures selected == All || IsEmpty(f) ==> r == f
    ensures selected != All && !IsEmpty(f) ==>
      forall row :: multiset(r.rows)[row] == if InCountry(row, selected) then multiset(f.rows)[row] else 0
  {
    if selected == All || IsEmpty(f) then f
    else
      KeepCountryCounts(f.rows, selected);
      Frame(f.columns, KeepCountry(f.rows, selected))
  }

  /** Each row of the selected country is kept as often as it occurs, every other row dropped. */
  lemma {:induction false} KeepCountryCounts(rows: seq<Row>, selected: string)
    ensures forall row :: multiset(KeepCountry(rows, selected))[row]
                          == if InCountry(row, selected) then multiset(rows)[row] else 0
    decreases |rows|
  {
    if |rows| > 0 {
      KeepCountryCounts(rows[1..], selected);
      assert rows == [rows[0]] + rows[1..];
    }
  }

  /** Filtering keeps the original order: it distributes over concatenation. */
  lemma {:induction false} KeepCountryAppend(a: seq<Row>, b: seq<Row>, selected: string)
    ensures KeepCountry(a + b, selected) == KeepCountry(a, selected) + KeepCountry(b, selected)
    decreases |a|
  {
    if |a| == 0 {
      assert a + b == b;
    } else {
      assert (a + b)[0] == a[0];
      assert (a + b)[1..] == a[1..] + b;
      KeepCountryAppend(a[1..], b, selected);
    }
  }

  lemma {:induction false} KeepCountryIdempotent(rows: seq<Row>, selected: string)
    ensures KeepCountry(KeepCountry(rows, selected), selected) == KeepCountry(rows, selected)
    decreases |rows|
  {
    if |rows| > 0 {
      KeepCountryIdempotent(rows[1..], selected);
    }
  }

  /**
   * Every table a loader returns can be passed to `filter_df` with any
   * selection: it is either the empty table or has a `country` column.
   */
  lemma LoadedTablesFilterable(source: Option<Frame>)
    ensures var f := DataLoader.LoadPassengerFlow(source); IsEmpty(f) || "country" in f.columns
    ensures var f := DataLoader.LoadCargoFlow(source); IsEmpty(f) || "country" in f.columns
    ensures var f := DataLoader.LoadTourismInbound(source); IsEmpty(f) || "country" in f.columns
    ensures var f := DataLoader.LoadGovernanceFlags(source); IsEmpty(f) || "country" in f.columns
    ensures var f := DataLoader.LoadOpportunityScores(source); IsEmpty(f) || "country" in f.columns
  {
  }

  /** Filtering twice by the same selection is filtering once. */
  lemma FilterFrameIdempotent(f: Frame, selected: string)
    requires selected == All || IsEmpty(f) || "country" in f.columns
    ensures FilterFrame(FilterFrame(f, selected), selected) == FilterFrame(f, selected)
  {
    if selected != All && !IsEmpty(f) {
      KeepCountryIdempotent(f.rows, selected);
    }
  }

  lemma {:induction false} KeepCountrySumAtMost(rows: seq<Row>, selected: string, column: string)
    requires NonNegativeColumn(rows, column)
    ensures ColumnSum(KeepCountry(rows, selected), column) <= ColumnSum(rows, column)
    decreases |rows|
  {
    if |rows| > 0 {
      assert NonNegativeColumn(rows[1..], column) by {
        forall i | 0 <= i < |rows| - 1 ensures NumericValue(Cell(rows[1..][i], column)) >= 0.0 {
          assert rows[1..][i] == rows[i + 1];
        }
      }
      KeepCountrySumAtMost(rows[1..], selected, column);
    }
  }

  /** With non-negative volumes, one country's passenger total never exceeds the all-country total. */
  lemma FilteredPassengersAtMostTotal(f: Frame, selected: string)
    requires selected == All || IsEmpty(f) || "country" in f.columns
    requires Summable(f, "passenger_volume")
    requires NonNegativeColumn(f.rows, "passenger_volume")
    ensures Summable(FilterFrame(f, selected), "passenger_volume")
    ensures CalculateTotalPassengers(FilterFrame(f, selected)) <= CalculateTotalPassengers(f)
  {
    var g := FilterFrame(f, selected);
    if selected != All && !IsEmpty(f) {
      assert forall i :: 0 <= i < |g.rows| ==> g.rows[i] in f.rows by {
        forall i | 0 <= i < |g.rows| ensures g.rows[i] in f.rows {
          assert g.rows[i] in multiset(g.rows);
        }
      }
      assert NonNegativeColumn(g.rows, "passenger_volume");
      KeepCountrySumAtMost(f.rows, selected, "passenger_volume");
      ColumnSumNonNegative(g.rows, "passenger_volume");
    }
  }
}

=== FILE: data_loader.dfy ===
/**
 * The accept/reject decision of the five loaders in scripts/data_loader.py.
 * Reading the file is left to the caller: a loader receives `Some(frame)`
 * for a parsed CSV and `None` when the file is missing or cannot be parsed
 * (both end in the loader's `except` branch).
 */
module DataLoader {
  import opened Wrappers
  import opened Frames

  const PassengerFlowColumns: seq<string> := ["country", "year", "passenger_volume"]
  const CargoFlowColumns: seq<string> := ["country", "year", "cargo_tonnage"]
  const TourismInboundColumns: seq<string> := ["country", "year", "inbound_tourists"]
  const GovernanceFlagColumns: seq<string> := ["country", "year", "governance_flag"]
  const OpportunityColumns: seq<string> := ["country", "year", "sector", "procurement_readiness_score"]
  const LegacyOpportunityColumns: seq<string> :=
    ["country", "year", "aviation_score", "tourism_score", "combined_opportunity_score"]

  /** The table as read when it has every required column; otherwise the empty table. */
  function Validated(source: Option<Frame>, required: seq<string>): (r: Frame)
    ensures source.Some? && HasColumns(source.value, required) ==> r == source.value
    ensures source.None? || !HasColumns(source.value, required) ==> r == EmptyFrame
  {
    if source.Some? && HasColumns(source.value, required) then source.value else EmptyFrame
  }

  /** Loading what a loader returned accepts it again: validation is idempotent. */
  lemma ValidatedIdempotent(source: Option<Frame>, required: seq<string>)
    ensures Validated(Some(Validated(source, required)), required) == Validated(source, required)
  {
    if !(source.Some? && HasColumns(source.value, required)) && |required| > 0 {
      assert required[0] !in EmptyFrame.columns;
    }
  }

  function LoadPassengerFlow(source: Option<Frame>): (r: Frame)
    ensures source.Some? && {"country", "year", "passenger_volume"} <= source.value.columns ==> r == source.value
    ensures source.None? || !({"country", "year", "passenger_volume"} <= source.value.columns) ==> r == EmptyFrame
  {
    Validated(source, PassengerFlowColumns)
  }

  function LoadCargoFlow(source: Option<Frame>): (r: Frame)
    ensures source.Some? && {"country", "year", "cargo_tonnage"} <= source.value.columns ==> r == source.value
    ensures source.None? || !({"country", "year", "cargo_tonnage"} <= source.value.columns) ==> r == EmptyFrame
  {
    Validated(source, CargoFlowColumns)
  }

  function LoadTourismInbound(source: Option<Frame>): (r: Frame)
    ensures source.Some? && {"country", "year", "inbound_tourists"} <= source.value.columns ==> r == source.value
    ensures source.None? || !({"country", "year", "inbound_tourists"} <= source.value.columns) ==> r == EmptyFrame
  {
    Validated(source, TourismInboundColumns)
  }

  function LoadGovernanceFlags(source: Option<Frame>): (r: Frame)
    ensures source.Some? && {"country", "year", "governance_flag"} <= source.value.columns ==> r == source.value
    ensures source.None? || !({"country", "year", "governance_flag"} <= source.value.columns) ==> r == EmptyFrame
  {
    Validated(source, GovernanceFlagColumns)
  }

  /** The current schema, else the legacy one, else the empty table. */
  function LoadOpportunityScores(source: Option<Frame>): (r: Frame)
    ensures source.Some? && {"country", "year", "sector", "procurement_readiness_score"} <= source.value.columns
            ==> r == source.value
    ensures source.Some?
            && {"country", "year", "aviation_score", "tourism_score", "combined_opportunity_score"} <= source.value.columns
            ==> r == source.value
    ensures source.None?
            || (!({"country", "year", "sector", "procurement_readiness_score"} <= source.value.columns)
                && !({"country", "year", "aviation_score", "tourism_score", "combined_opportunity_score"} <= source.value.columns))
            ==> r == EmptyFrame
  {
    if source.None? then EmptyFrame
    else if HasColumns(source.value, OpportunityColumns) then source.value
    else if HasColumns(source.value, LegacyOpportunityColumns) then source.value
    else EmptyFrame
  }
}

=== FILE: frames.dfy ===
/**
 * The tables (pandas DataFrames) the dashboard and the pipeline pass around,
 * reduced to what the modelled code looks at: a set of column names and a
 * sequence of rows, each row a map from column name to cell.
 */
module Frames {

  /** A cell as the CSV reader types it; `Missing` is pandas' NaN. */
  datatype Value = Text(s: string) | Number(x: real) | Bool(b: bool) | Missing

  type Row = map<string, Value>

  datatype Frame = Frame(columns: set<string>, rows: seq<Row>)

  /** `pd.DataFrame()`: no columns, no rows. */
  const EmptyFrame: Frame := Frame({}, [])

  /** The cell of `row` in `column`; a row without that key reads as NaN. */
  function Cell(row: Row, column: string): Value {
    if column in row then row[column] else Missing
  }

  /** `df.empty`: true when either axis has length zero. */
  predicate IsEmpty(f: Frame) {
    |f.rows| == 0 || f.columns == {}
  }

  /** `all(col in df.columns for col in required)`. */
  predicate HasColumns(f: Frame, required: seq<string>) {
    forall c :: c in required ==> c in f.columns
  }

  /** Python's `bool(v)`; note that NaN is truthy. */
  predicate Truthy(v: Value) {
    match v
    case Text(s) => s != ""
    case Number(x) => x != 0.0
    case Bool(b) => b
    case Missing => true
  }
}

=== FILE: metrics.dfy ===
/** The two headline totals of scripts/metrics.py. */
module Metrics {
  import opened Frames

  /** The contribution of a cell to `Series.sum()`: NaN is skipped, `True` counts 1. */
  function NumericValue(v: Value): real {
    match v
    case Number(x) => x
    case Bool(b) => if b then 1.0 else 0.0
    case Missing => 0.0
    case Text(_) => 0.0
  }

  /** `sum` raises on text cells, so callers must pass a numeric column. */
  predicate Summable(f: Frame, column: string) {
    forall i :: 0 <= i < |f.rows| ==> !Cell(f.rows[i], column).Text?
  }

  function ColumnSum(rows: seq<Row>, column: string): real {
    if |rows| == 0 then 0.0 else NumericValue(Cell(rows[0], column)) + ColumnSum(rows[1..], column)
  }

  /** Python's `int()` of a float: truncation toward zero. */
  function TruncateToInt(x: real): (n: int)
    ensures x >= 0.0 ==> 0.0 <= n as real <= x < n as real + 1.0
    ensures x < 0.0 ==> n as real - 1.0 < x <= n as real <= 0.0
  {
    if x >= 0.0 then x.Floor else -((-x).Floor)
  }

  /** `if df.empty or column not in df.columns: return 0` else `int(df[column].sum())`. */
  function ColumnTotal(f: Frame, column: string): (total: int)
    requires Summable(f, column)
  {
    if IsEmpty(f) || column !in f.columns then 0 else TruncateToInt(ColumnSum(f.rows, column))
  }

  function CalculateTotalPassengers(f: Frame): (total: int)
    requires Summable(f, "passenger_volume")
    ensures IsEmpty(f) || "passenger_volume" !in f.columns ==> total == 0
    ensures !IsEmpty(f) && "passenger_volume" in f.columns ==>
      var sum := ColumnSum(f.rows, "passenger_volume");
      && (sum >= 0.0 ==> 0.0 <= total as real <= sum < total as real + 1.0)
      && (sum < 0.0 ==> total as real - 1.0 < sum <= total as real <= 0.0)
  {
    ColumnTotal(f, "passenger_volume")
  }

  function CalculateTotalCargo(f: Frame): (total: int)
    requires Summable(f, "cargo_tonnage")
    ensures IsEmpty(f) || "cargo_tonnage" !in f.columns ==> total == 0
    ensures !IsEmpty(f) && "cargo_tonnage" in f.columns ==>
      var sum := ColumnSum(f.rows, "cargo_tonnage");
      && (sum >= 0.0 ==> 0.0 <= total as real <= sum < total as real + 1.0)
      && (sum < 0.0 ==> total as real - 1.0 < sum <= total as real <= 0.0)
  {
    ColumnTotal(f, "cargo_tonnage")
  }

  /** The sum over two blocks of rows is the sum of the blocks' sums. */
  lemma {:induction false} ColumnSumAppend(a: seq<Row>, b: seq<Row>, column: string)
    ensures ColumnSum(a + b, column) == ColumnSum(a, column) + ColumnSum(b, column)
    decreases |a|
  {
    if |a| == 0 {
      assert a + b == b;
    } else {
      assert (a + b)[0] == a[0];
      assert (a + b)[1..] == a[1..] + b;
      ColumnSumAppend(a[1..], b, column);
    }
  }

  predicate NonNegativeColumn(rows: seq<Row>, column: string) {
    forall i :: 0 <= i < |rows| ==> NumericValue(Cell(rows[i], column)) >= 0.0
  }

  lemma {:induction false} ColumnSumNonNegative(rows: seq<Row>, column: string)
    requires NonNegativeColumn(rows, column)
    ensures ColumnSum(rows, column) >= 0.0
    decreases |rows|
  {
    if |rows| > 0 {
      assert NonNegativeColumn(rows[1..], column) by {
        forall i | 0 <= i < |rows| - 1 ensures NumericValue(Cell(rows[1..][i], column)) >= 0.0 {
          assert rows[1..][i] == rows[i + 1];
        }
      }
      ColumnSumNonNegative(rows[1..], column);
    }
  }

  /** With non-negative volumes the total is the whole part of the sum. */
  lemma TotalPassengersIsFloorOfSum(f: Frame)
    requires Summable(f, "passenger_volume")
    requires NonNegativeColumn(f.rows, "passenger_volume")
    ensures CalculateTotalPassengers(f) >= 0
    ensures !IsEmpty(f) && "passenger_volume" in f.columns ==>
      CalculateTotalPassengers(f) == ColumnSum(f.rows, "passenger_volume").Floor
  {
    ColumnSumNonNegative(f.rows, "passenger_volume");
  }

  /** With non-negative tonnages the cargo total is the whole part of the tonnage sum. */
  lemma TotalCargoIsFloorOfSum(f: Frame)
    requires Summable(f, "cargo_tonnage")
    requires NonNegativeColumn(f.rows, "cargo_tonnage")
    ensures CalculateTotalCargo(f) >= 0
    ensures !IsEmpty(f) && "cargo_tonnage" in f.columns ==>
      CalculateTotalCargo(f) == ColumnSum(f.rows, "cargo_tonnage").Floor
  {
    ColumnSumNonNegative(f.rows, "cargo_tonnage");
  }
}

=== FILE: pipeline.dfy ===
/**
 * The flag-based pipeline of scripts/pipeline.py. The two scorers it imports,
 * `calculate_ai_procurement_index` and `governance_score`, are not part of
 * this model and are passed in as functions; file reads arrive as
 * `Option<Frame>` (`None` for a missing or unreadable file) and file writes
 * are recorded by name, with `writable` naming the outputs whose write
 * succeeds.
 */
module Pipeline {
  import opened Wrappers
  import opened Frames

  // ---------------------------------------------------------------------
  // flags_from_row
  // ---------------------------------------------------------------------

  type Flags = map<string, bool>

  function FlagsFromRow(row: Row): (flags: Flags)
    ensures flags.Keys == {"digital_procurement", "open_contracting", "ai_policy", "vendor_transparency"}
    ensures forall k :: k in flags ==> flags[k] == Truthy(Cell(row, k))
  {
    map[
      "digital_procurement" := Truthy(Cell(row, "digital_procurement")),
      "open_contracting" := Truthy(Cell(row, "open_contracting")),
      "ai_policy" := Truthy(Cell(row, "ai_policy")),
      "vendor_transparency" := Truthy(Cell(row, "vendor_transparency"))
    ]
  }

  /** A flag cell left empty in the CSV is NaN, and `bool(NaN)` is true: the flag counts as set. */
  lemma MissingFlagReadsAsSet(row: Row, k: string)
    requires k in {"digital_procurement", "open_contracting", "ai_policy", "vendor_transparency"}
    requires k !in row || row[k] == Missing
    ensures FlagsFromRow(row)[k]
  {
  }

  // ---------------------------------------------------------------------
  // Per-row AI procurement index
  // ---------------------------------------------------------------------

  /** A Python float: a real number or NaN. */
  datatype Float = Finite(x: real) | NotANumber

  /** `float(v)`; `None` when it raises, which the model takes to be every text cell. */
  function ToFloat(v: Value): Option<Float> {
    match v
    case Number(x) => Some(Finite(x))
    case Bool(b) => Some(Finite(if b then 1.0 else 0.0))
    case Missing => Some(NotANumber)
    case Text(_) => None
  }

  /** `row.get(column, default)` for a row of a table with `columns`. */
  function RowGet(columns: set<string>, row: Row, column: string, default: Value): Value {
    if column in columns then Cell(row, column) else default
  }

  const DefaultCountryModifier: Value := Number(1.0)

  /** The index of one row, from that row's sector, flags and country modifier only. */
  function RowIndex(columns: set<string>, row: Row, index: (Value, Flags, Float) -> real): Option<real> {
    match ToFloat(RowGet(columns, row, "country_modifier", DefaultCountryModifier))
    case None => None
    case Some(modifier) => Some(index(Cell(row, "sector"), FlagsFromRow(row), modifier))
  }

  /** The rows' indices in order, or `None` as soon as one row's modifier does not convert. */
  function RowIndices(columns: set<string>, rows: seq<Row>, index: (Value, Flags, Float) -> real): (r: Option<seq<real>>)
    ensures r.Some? <==> forall i :: 0 <= i < |rows| ==> RowIndex(columns, rows[i], index).Some?
    ensures r.Some? ==> |r.value| == |rows|
    ensures r.Some? ==> forall i :: 0 <= i < |rows| ==> r.value[i] == RowIndex(columns, rows[i], index).value
  {
    if |rows| == 0 then Some([])
    else
      match RowIndex(columns, rows[0], index)
      case None => None
      case Some(first) =>
        match RowIndices(columns, rows[1..], index)
        case None =>
          assert forall i :: 1 <= i < |rows| ==> rows[1..][i - 1] == rows[i];
          None
        case Some(rest) =>
          assert forall i :: 1 <= i < |rows| ==> rows[1..][i - 1] == rows[i];
          Some([first] + rest)
  }

  /** Validation requires `country_modifier`, so `row.get`'s default 1.0 is never used. */
  lemma ModifierDefaultUnused(columns: set<string>, row: Row, index: (Value, Flags, Float) -> real)
    requires "country_modifier" in columns
    ensures RowIndex(columns, row, index)
            == match ToFloat(Cell(row, "country_modifier"))
               case None => None
               case Some(m) => Some(index(Cell(row, "sector"), FlagsFromRow(row), m))
  {
  }

  /** Rows that agree on sector, flags and modifier get the same index, whatever else they hold. */
  lemma RowIndexIsLocal(columns: set<string>, a: Row, b: Row, index: (Value, Flags, Float) -> real)
    requires Cell(a, "sector") == Cell(b, "sector")
    requires Cell(a, "country_modifier") == Cell(b, "country_modifier")
    requires forall k :: k in {"digital_procurement", "open_contracting", "ai_policy", "vendor_transparency"}
                         ==> Cell(a, k) == Cell(b, k)
    ensures RowIndex(columns, a, index) == RowIndex(columns, b, index)
  {
    assert FlagsFromRow(a) == FlagsFromRow(b);
  }

  // ---------------------------------------------------------------------
  // Opportunity table
  // ---------------------------------------------------------------------

  /** `(x).round(1)` on exact reals: nearest tenth, ties to the even tenth. */
  function Round1(x: real): (r: real)
    ensures -0.05 <= r - x <= 0.05
    ensures (r * 10.0).Floor as real == r * 10.0
  {
    var y := x * 10.0;
    var f := y.Floor;
    var d := y - f as real;
    var n := if d < 0.5 then f else if d > 0.5 then f + 1 else if f % 2 == 0 then f else f + 1;
    assert (n as real / 10.0) * 10.0 == n as real;
    n as real / 10.0
  }

  /** Rounding an already rounded score changes nothing. */
  lemma Round1Idempotent(x: real)
    ensures Round1(Round1(x)) == Round1(x)
  {
    var r := Round1(x);
    var n := (r * 10.0).Floor;
    assert r * 10.0 == n as real;
    assert (r * 10.0) - (r * 10.0).Floor as real == 0.0;
  }

  /** Halfway cases go to the even tenth: 0.25 becomes 0.2 and 0.35 becomes 0.4. */
  lemma Round1TiesToEven()
    ensures Round1(0.25) == 0.2
    ensures Round1(0.35) == 0.4
  {
    assert (0.25 * 10.0).Floor == 2;
    assert (0.35 * 10.0).Floor == 3;
  }

  const DefaultYear: int := 2023

  datatype PipelineOpportunityRow = PipelineOpportunityRow(country: Value, year: int, sector: Value, procurementReadinessScore: real)

  /**
   * One opportunity row per input row, in row order: the row's country and
   * sector, the default year, and its index scaled to 0..100 and rounded to
   * a whole number of tenths.
   */
  function OpportunityTable(rows: seq<Row>, indices: seq<real>): (o: seq<PipelineOpportunityRow>)
    requires |rows| == |indices|
    ensures |o| == |rows|
    ensures forall i :: 0 <= i < |rows| ==>
      && o[i].country == Cell(rows[i], "country") && o[i].sector == Cell(rows[i], "sector")
      && o[i].year == DefaultYear
    ensures forall i :: 0 <= i < |rows| ==>
      && -0.05 <= o[i].procurementReadinessScore - indices[i] * 100.0 <= 0.05
      && (o[i].procurementReadinessScore * 10.0).Floor as real == o[i].procurementReadinessScore * 10.0
  {
    seq(|rows|, i requires 0 <= i < |rows| =>
      PipelineOpportunityRow(Cell(rows[i], "country"), DefaultYear, Cell(rows[i], "sector"), Round1(indices[i] * 100.0)))
  }

  // ---------------------------------------------------------------------
  // Governance table
  // ---------------------------------------------------------------------

  /** `Series.unique()`: each distinct value once, in order of first appearance (NaN included once). */
  function Unique(vs: seq<Value>): (u: seq<Value>)
    ensures forall v :: v in u <==> v in vs
    ensures forall i, j :: 0 <= i < j < |u| ==> u[i] != u[j]
    decreases |vs|
  {
    if |vs| == 0 then []
    else
      var init := vs[..|vs| - 1];
      var last := vs[|vs| - 1];
      assert vs == init + [last];
      var u := Unique(init);
      if last in u then u else u + [last]
  }

  /** The position of the first occurrence of `v`. */
  function FirstIndex(vs: seq<Value>, v: Value): (k: nat)
    requires v in vs
    ensures k < |vs| && vs[k] == v
    ensures forall i :: 0 <= i < k ==> vs[i] != v
  {
    if vs[0] == v then 0 else 1 + FirstIndex(vs[1..], v)
  }

  lemma FirstIndexExtend(init: seq<Value>, last: Value, v: Value)
    requires v in init + [last]
    ensures v in init ==> FirstIndex(init + [last], v) == FirstIndex(init, v)
    ensures v !in init ==> FirstIndex(init + [last], v) == |init|
  {
    var k := FirstIndex(init + [last], v);
    if v in init {
      var k' := FirstIndex(init, v);
      assert (init + [last])[k'] == v;
    } else {
      assert forall i :: 0 <= i < |init| ==> (init + [last])[i] == init[i];
    }
  }

  /** Membership in a sequence is having a position in it. */
  lemma {:induction false} MemberIsIndexed(u: seq<Value>)
    ensures forall v :: v in u <==> exists i :: 0 <= i < |u| && u[i] == v
  {
    forall v | v in u ensures exists i :: 0 <= i < |u| && u[i] == v {
      var i :| 0 <= i < |u| && u[i] == v;
    }
  }

  /** Each value of the column sits at some position of `unique()`. */
  lemma {:induction false} UniqueCovers(vs: seq<Value>)
    ensures forall v :: v in vs <==> exists i :: 0 <= i < |Unique(vs)| && Unique(vs)[i] == v
  {
    var u := Unique(vs);
    MemberIsIndexed(u);
    assert forall v :: v in u <==> v in vs;
  }

  /** `unique()` lists values in the order they first appear. */
  lemma {:induction false} UniqueFirstAppearanceOrder(vs: seq<Value>)
    ensures forall i, j :: 0 <= i < j < |Unique(vs)| ==>
      FirstIndex(vs, Unique(vs)[i]) < FirstIndex(vs, Unique(vs)[j])
    decreases |vs|
  {
    if |vs| > 0 {
      var init := vs[..|vs| - 1];
      var last := vs[|vs| - 1];
      assert vs == init + [last];
      UniqueFirstAppearanceOrder(init);
      var u := Unique(init);
      forall i, j | 0 <= i < j < |Unique(vs)|
        ensures FirstIndex(vs, Unique(vs)[i]) < FirstIndex(vs, Unique(vs)[j])
      {
        assert Unique(vs)[i] in u;
        FirstIndexExtend(init, last, Unique(vs)[i]);
        FirstIndexExtend(init, last, Unique(vs)[j]);
        if j < |u| {
          assert Unique(vs)[j] in u;
        } else {
          assert Unique(vs)[j] == last && last !in init;
        }
      }
    }
  }

  function CountryColumn(rows: seq<Row>): (cs: seq<Value>)
    ensures |cs| == |rows|
    ensures forall i :: 0 <= i < |rows| ==> cs[i] == Cell(rows[i], "country")
  {
    seq(|rows|, i requires 0 <= i < |rows| => Cell(rows[i], "country"))
  }

  /** `combined_df['country'] == country`: equality, except that NaN equals nothing. */
  predicate SameCountry(cell: Value, country: Value) {
    cell == country && !country.Missing?
  }

  /** The sum of `governance_score` over the rows of `country`. */
  function GovernanceSum(rows: seq<Row>, country: Value, score: Flags -> real): real {
    if |rows| == 0 then 0.0
    else (if SameCountry(Cell(rows[0], "country"), country) then score(FlagsFromRow(rows[0])) else 0.0)
         + GovernanceSum(rows[1..], country, score)
  }

  /** How many rows belong to `country`. */
  function MatchCount(rows: seq<Row>, country: Value): nat {
    if |rows| == 0 then 0
    else (if SameCountry(Cell(rows[0], "country"), country) then 1 else 0) + MatchCount(rows[1..], country)
  }

  /** The average of `governance_score` over the country's rows; 0 when it has none. */
  function MeanGovernance(rows: seq<Row>, country: Value, score: Flags -> real): real {
    var count := MatchCount(rows, country);
    if count > 0 then GovernanceSum(rows, country, score) / count as real else 0.0
  }

  const GovernanceThreshold: real := 0.5
  const High: string := "HIGH"
  const Low: string := "LOW"

  datatype PipelineGovernanceRow = PipelineGovernanceRow(country: Value, year: int, governanceFlag: string)

  /** Comparing a mean with a threshold is comparing the sum with threshold times count. */
  lemma MeanAtLeast(sum: real, count: real, t: real)
    ensures count > 0.0 ==> (sum / count >= t <==> sum >= t * count)
  {
    if count > 0.0 {
      var mean := sum / count;
      assert mean * count == sum;
      if mean >= t {
        assert mean * count >= t * count;
      }
      if sum >= t * count {
        assert (sum - t * count) / count >= 0.0;
        assert (sum - t * count) / count == mean - t;
      }
    }
  }

  /** HIGH when the country's mean governance score reaches the threshold. */
  function CountryFlag(rows: seq<Row>, country: Value, score: Flags -> real): (flag: string)
    ensures flag == High || flag == Low
    ensures flag == High <==>
      MatchCount(rows, country) > 0
      && GovernanceSum(rows, country, score) >= GovernanceThreshold * MatchCount(rows, country) as real
  {
    var count := MatchCount(rows, country);
    var mean := MeanGovernance(rows, country, score);
    MeanAtLeast(GovernanceSum(rows, country, score), count as real, GovernanceThreshold);
    if mean >= GovernanceThreshold then High else Low
  }

  /**
   * One row per distinct country, in order of first appearance, all for the
   * default year, HIGH exactly when the country's mean score reaches 0.5.
   */
  function GovernanceTable(rows: seq<Row>, score: Flags -> real): (g: seq<PipelineGovernanceRow>)
    ensures forall c :: c in CountryColumn(rows) <==> exists i :: 0 <= i < |g| && g[i].country == c
    ensures forall i, j :: 0 <= i < j < |g| ==> g[i].country != g[j].country
    ensures forall i, j :: 0 <= i < j < |g| ==>
      FirstIndex(CountryColumn(rows), g[i].country) < FirstIndex(CountryColumn(rows), g[j].country)
    ensures forall i :: 0 <= i < |g| ==> g[i].year == DefaultYear
    ensures forall i :: 0 <= i < |g| ==>
      (g[i].governanceFlag == High <==>
         MatchCount(rows, g[i].country) > 0
         && GovernanceSum(rows, g[i].country, score) >= GovernanceThreshold * MatchCount(rows, g[i].country) as real)
  {
    var countries := Unique(CountryColumn(rows));
    UniqueFirstAppearanceOrder(CountryColumn(rows));
    UniqueCovers(CountryColumn(rows));
    var g := seq(|countries|, i requires 0 <= i < |countries| =>
      PipelineGovernanceRow(countries[i], DefaultYear, CountryFlag(rows, countries[i], score)));
    assert forall i :: 0 <= i < |g| ==> g[i].country == countries[i];
    g
  }

  lemma {:induction false} MatchCountZeroForMissing(rows: seq<Row>)
    ensures MatchCount(rows, Missing) == 0
    decreases |rows|
  {
    if |rows| > 0 {
      MatchCountZeroForMissing(rows[1..]);
    }
  }

  /** NaN countries match no row (NaN != NaN), so their mean is 0 and they are LOW. */
  lemma MissingCountryIsLow(rows: seq<Row>, score: Flags -> real)
    ensures CountryFlag(rows, Missing, score) == Low
  {
    MatchCountZeroForMissing(rows);
  }

  lemma {:induction false} SumAtLeastThreshold(rows: seq<Row>, country: Value, score: Flags -> real)
    requires forall i :: 0 <= i < |rows| && SameCountry(Cell(rows[i], "country"), country)
                         ==> score(FlagsFromRow(rows[i])) >= GovernanceThreshold
    ensures GovernanceSum(rows, country, score) >= GovernanceThreshold * MatchCount(rows, country) as real
    decreases |rows|
  {
    if |rows| > 0 {
      assert forall i :: 1 <= i < |rows| ==> rows[1..][i - 1] == rows[i];
      SumAtLeastThreshold(rows[1..], country, score);
    }
  }

  lemma {:induction false} SumBelowThreshold(rows: seq<Row>, country: Value, score: Flags -> real)
    requires forall i :: 0 <= i < |rows| && SameCountry(Cell(rows[i], "country"), country)
                         ==> score(FlagsFromRow(rows[i])) < GovernanceThreshold
    ensures MatchCount(rows, country) > 0 ==>
      GovernanceSum(rows, country, score) < GovernanceThreshold * MatchCount(rows, country) as real
    ensures MatchCount(rows, country) == 0 ==> GovernanceSum(rows, country, score) == 0.0
    decreases |rows|
  {
    if |rows| > 0 {
      assert forall i :: 1 <= i < |rows| ==> rows[1..][i - 1] == rows[i];
      SumBelowThreshold(rows[1..], country, score);
    }
  }

  /**
   * The flag follows the mean, not any single row: a country all of whose rows
   * score at least 0.5 is HIGH, one all of whose rows score below 0.5 is LOW.
   */
  lemma FlagFollowsRowScores(rows: seq<Row>, country: Value, score: Flags -> real)
    ensures MatchCount(rows, country) > 0
            && (forall i :: 0 <= i < |rows| && SameCountry(Cell(rows[i], "country"), country)
                            ==> score(FlagsFromRow(rows[i])) >= GovernanceThreshold)
            ==> CountryFlag(rows, country, score) == High
    ensures (forall i :: 0 <= i < |rows| && SameCountry(Cell(rows[i], "country"), country)
                         ==> score(FlagsFromRow(rows[i])) < GovernanceThreshold)
            ==> CountryFlag(rows, country, score) == Low
  {
    if forall i :: 0 <= i < |rows| && SameCountry(Cell(rows[i], "country"), country)
                   ==> score(FlagsFromRow(rows[i])) >= GovernanceThreshold {
      SumAtLeastThreshold(rows, country, score);
    }
    if forall i :: 0 <= i < |rows| && SameCountry(Cell(rows[i], "country"), country)
                   ==> score(FlagsFromRow(rows[i])) < GovernanceThreshold {
      SumBelowThreshold(rows, country, score);
    }
  }

  /** The mean is taken over the rows of both sectors together. */
  lemma {:induction false} GovernanceAcrossSectors(aviation: seq<Row>, tourism: seq<Row>, country: Value, score: Flags -> real)
    ensures GovernanceSum(aviation + tourism, country, score)
            == GovernanceSum(aviation, country, score) + GovernanceSum(tourism, country, score)
    ensures MatchCount(aviation + tourism, country) == MatchCount(aviation, country) + MatchCount(tourism, country)
    decreases |aviation|
  {
    if |aviation| == 0 {
      assert aviation + tourism == tourism;
    } else {
      assert (aviation + tourism)[0] == aviation[0];
      assert (aviation + tourism)[1..] == aviation[1..] + tourism;
      GovernanceAcrossSectors(aviation[1..], tourism, country, score);
    }
  }

  // ---------------------------------------------------------------------
  // run_scoring_pipeline
  // ---------------------------------------------------------------------

  const RequiredColumns: seq<string> :=
    ["country", "sector", "digital_procurement", "open_contracting", "ai_policy", "vendor_transparency", "country_modifier"]

  /** The four writes, in program order. */
  const OutputFiles: seq<string> := [
    "fact_aviation_governance_flags_computed.csv",
    "fact_tourism_governance_flags_computed.csv",
    "fact_uk_africa_aviation_opportunity.csv",
    "fact_governance_flags.csv"
  ]

  /** The files written before the first write that fails. */
  function WritesUntilFailure(files: seq<string>, writable: set<string>): (w: seq<string>)
    ensures |w| <= |files| && w == files[..|w|]
    ensures forall i :: 0 <= i < |w| ==> w[i] in writable
    ensures |w| < |files| ==> files[|w|] !in writable
    ensures (forall i :: 0 <= i < |files| ==> files[i] in writable) ==> w == files
  {
    if |files| == 0 || files[0] !in writable then []
    else [files[0]] + WritesUntilFailure(files[1..], writable)
  }

  datatype Tables = Tables(governance: seq<PipelineGovernanceRow>, opportunity: seq<PipelineOpportunityRow>)

  /** `result` is `None` for the `(None, None)` return; `written` lists the files written. */
  datatype Run = Run(result: Option<Tables>, written: seq<string>)

  /** Every modifier of the table converts with `float`. */
  predicate ModifiersConvert(f: Frame, index: (Value, Flags, Float) -> real) {
    forall i :: 0 <= i < |f.rows| ==> RowIndex(f.columns, f.rows[i], index).Some?
  }

  /** The computation between validation and the writes: indices, then the two tables. */
  function ScoreTables(aviation: Frame, tourism: Frame, index: (Value, Flags, Float) -> real, score: Flags -> real): (t: Option<Tables>)
    ensures t.Some? <==> ModifiersConvert(aviation, index) && ModifiersConvert(tourism, index)
  {
    var aviationIndices := RowIndices(aviation.columns, aviation.rows, index);
    var tourismIndices := RowIndices(tourism.columns, tourism.rows, index);
    if aviationIndices.None? || tourismIndices.None? then None
    else
      var combined := aviation.rows + tourism.rows;
      Some(Tables(GovernanceTable(combined, score), OpportunityTable(combined, aviationIndices.value + tourismIndices.value)))
  }

  function RunScoringPipeline(aviationSource: Option<Frame>, tourismSource: Option<Frame>,
                              index: (Value, Flags, Float) -> real, score: Flags -> real,
                              writable: set<string>): (run: Run)
    ensures aviationSource.None? || tourismSource.None? ==> run == Run(None, [])
    ensures aviationSource.Some? && !HasColumns(aviationSource.value, RequiredColumns) ==> run == Run(None, [])
    ensures tourismSource.Some? && !HasColumns(tourismSource.value, RequiredColumns) ==> run == Run(None, [])
    ensures run.result.Some? <==> run.written == OutputFiles
  {
    if aviationSource.None? || tourismSource.None? then Run(None, [])
    else
      var aviation := aviationSource.value;
      var tourism := tourismSource.value;
      if !HasColumns(aviation, RequiredColumns) || !HasColumns(tourism, RequiredColumns) then Run(None, [])
      else
        match ScoreTables(aviation, tourism, index, score)
        case None => Run(None, [])
        case Some(tables) =>
          var written := WritesUntilFailure(OutputFiles, writable);
          if written == OutputFiles then Run(Some(tables), written) else Run(None, written)
  }


  /**
   * The run returns its tables exactly when both files were read, both have
   * the seven required columns, every modifier converts and every write
   * succeeds; a failure before the writes leaves nothing written.
   */
  lemma PipelineSucceedsExactly(aviationSource: Option<Frame>, tourismSource: Option<Frame>,
                                index: (Value, Flags, Float) -> real, score: Flags -> real, writable: set<string>)
    ensures var run := RunScoringPipeline(aviationSource, tourismSource, index, score, writable);
      run.result.Some? <==>
        && aviationSource.Some? && tourismSource.Some?
        && HasColumns(aviationSource.value, RequiredColumns) && HasColumns(tourismSource.value, RequiredColumns)
        && ModifiersConvert(aviationSource.value, index) && ModifiersConvert(tourismSource.value, index)
        && (forall k :: 0 <= k < |OutputFiles| ==> OutputFiles[k] in writable)
    ensures var run := RunScoringPipeline(aviationSource, tourismSource, index, score, writable);
      !(aviationSource.Some? && tourismSource.Some?
        && HasColumns(aviationSource.value, RequiredColumns) && HasColumns(tourismSource.value, RequiredColumns)
        && ModifiersConvert(aviationSource.value, index) && ModifiersConvert(tourismSource.value, index))
      ==> run.written == []
  {
  }

  /**
   * `o` holds, from `offset` on, one row per row of `rows` in the same order:
   * its country and sector, the default year and its index times 100 rounded.
   */
  ghost predicate OpportunityRowsAt(o: seq<PipelineOpportunityRow>, offset: nat, rows: seq<Row>, indices: seq<real>) {
    && |indices| == |rows|
    && offset + |rows| <= |o|
    && forall i :: 0 <= i < |rows| ==>
         o[offset + i] == PipelineOpportunityRow(Cell(rows[i], "country"), DefaultYear, Cell(rows[i], "sector"),
                                         Round1(indices[i] * 100.0))
  }

  /** The opportunity rows are the aviation rows' records followed by the tourism rows' records. */
  lemma ScoreTablesOpportunityRows(aviation: Frame, tourism: Frame, index: (Value, Flags, Float) -> real, score: Flags -> real)
    requires ModifiersConvert(aviation, index) && ModifiersConvert(tourism, index)
    ensures ScoreTables(aviation, tourism, index, score).Some?
    ensures var o := ScoreTables(aviation, tourism, index, score).value.opportunity;
      && |o| == |aviation.rows| + |tourism.rows|
      && OpportunityRowsAt(o, 0, aviation.rows, RowIndices(aviation.columns, aviation.rows, index).value)
      && OpportunityRowsAt(o, |aviation.rows|, tourism.rows, RowIndices(tourism.columns, tourism.rows, index).value)
  {
    var combined := aviation.rows + tourism.rows;
    var ai := RowIndices(aviation.columns, aviation.rows, index).value;
    var ti := RowIndices(tourism.columns, tourism.rows, index).value;
    var o := ScoreTables(aviation, tourism, index, score).value.opportunity;
    assert o == OpportunityTable(combined, ai + ti);
    OpportunityTableConcat(aviation.rows, tourism.rows, ai, ti);
  }

  lemma OpportunityTableConcat(a: seq<Row>, b: seq<Row>, ia: seq<real>, ib: seq<real>)
    requires |a| == |ia| && |b| == |ib|
    ensures OpportunityRowsAt(OpportunityTable(a + b, ia + ib), 0, a, ia)
    ensures OpportunityRowsAt(OpportunityTable(a + b, ia + ib), |a|, b, ib)
  {
    var o := OpportunityTable(a + b, ia + ib);
    forall i | 0 <= i < |a|
      ensures o[i] == PipelineOpportunityRow(Cell(a[i], "country"), DefaultYear, Cell(a[i], "sector"), Round1(ia[i] * 100.0))
    {
      assert (a + b)[i] == a[i] && (ia + ib)[i] == ia[i];
    }
    forall j | 0 <= j < |b|
      ensures o[|a| + j] == PipelineOpportunityRow(Cell(b[j], "country"), DefaultYear, Cell(b[j], "sector"), Round1(ib[j] * 100.0))
    {
      assert (a + b)[|a| + j] == b[j] && (ia + ib)[|a| + j] == ib[j];
    }
  }

  /**
   * When both tables validate, every modifier converts and every write
   * succeeds, the run returns its tables, and the opportunity table has one
   * row per input row, aviation rows first, each with its own country and
   * sector, the default year and its index times 100 rounded to one decimal.
   */
  lemma PipelineOpportunityRows(aviation: Frame, tourism: Frame,
                                index: (Value, Flags, Float) -> real, score: Flags -> real, writable: set<string>)
    requires HasColumns(aviation, RequiredColumns) && HasColumns(tourism, RequiredColumns)
    requires ModifiersConvert(aviation, index) && ModifiersConvert(tourism, index)
    requires forall k :: 0 <= k < |OutputFiles| ==> OutputFiles[k] in writable
    ensures RunScoringPipeline(Some(aviation), Some(tourism), index, score, writable).result.Some?
    ensures var o := RunScoringPipeline(Some(aviation), Some(tourism), index, score, writable).result.value.opportunity;
      && |o| == |aviation.rows| + |tourism.rows|
      && OpportunityRowsAt(o, 0, aviation.rows, RowIndices(aviation.columns, aviation.rows, index).value)
      && OpportunityRowsAt(o, |aviation.rows|, tourism.rows, RowIndices(tourism.columns, tourism.rows, index).value)
  {
    var run := RunScoringPipeline(Some(aviation), Some(tourism), index, score, writable);
    PipelineSucceedsExactly(Some(aviation), Some(tourism), index, score, writable);
    assert run.result == ScoreTables(aviation, tourism, index, score);
    ScoreTablesOpportunityRows(aviation, tourism, index, score);
  }

  /**
   * When both tables validate, every modifier converts and every write
   * succeeds, the run returns its tables, and the governance table has one
   * row per distinct country of the two tables together, no country twice,
   * in order of first appearance, all for the default year, HIGH exactly
   * when the country's mean score over both tables is at least 0.5.
   */
  lemma PipelineGovernanceRows(aviation: Frame, tourism: Frame,
                               index: (Value, Flags, Float) -> real, score: Flags -> real, writable: set<string>)
    requires HasColumns(aviation, RequiredColumns) && HasColumns(tourism, RequiredColumns)
    requires ModifiersConvert(aviation, index) && ModifiersConvert(tourism, index)
    requires forall k :: 0 <= k < |OutputFiles| ==> OutputFiles[k] in writable
    ensures RunScoringPipeline(Some(aviation), Some(tourism), index, score, writable).result.Some?
    ensures var g := RunScoringPipeline(Some(aviation), Some(tourism), index, score, writable).result.value.governance;
      var countries := CountryColumn(aviation.rows + tourism.rows);
      && (forall c :: c in countries <==> exists i :: 0 <= i < |g| && g[i].country == c)
      && (forall i, j :: 0 <= i < j < |g| ==> g[i].country != g[j].country)
      && (forall i, j :: 0 <= i < j < |g| ==> FirstIndex(countries, g[i].country) < FirstIndex(countries, g[j].country))
      && (forall i :: 0 <= i < |g| ==> g[i].year == DefaultYear)
      && (forall i :: 0 <= i < |g| ==>
            (g[i].governanceFlag == High <==>
               MatchCount(aviation.rows, g[i].country) + MatchCount(tourism.rows, g[i].country) > 0
               && GovernanceSum(aviation.rows, g[i].country, score) + GovernanceSum(tourism.rows, g[i].country, score)
                  >= GovernanceThreshold
                     * (MatchCount(aviation.rows, g[i].country) + MatchCount(tourism.rows, g[i].country)) as real))
  {
    var combined := aviation.rows + tourism.rows;
    var g := GovernanceTable(combined, score);
    PipelineSucceedsExactly(Some(aviation), Some(tourism), index, score, writable);
    assert g == RunScoringPipeline(Some(aviation), Some(tourism), index, score, writable).result.value.governance;
    forall i | 0 <= i < |g|
      ensures (g[i].governanceFlag == High <==>
               MatchCount(aviation.rows, g[i].country) + MatchCount(tourism.rows, g[i].country) > 0
               && GovernanceSum(aviation.rows, g[i].country, score) + GovernanceSum(tourism.rows, g[i].country, score)
                  >= GovernanceThreshold
                     * (MatchCount(aviation.rows, g[i].country) + MatchCount(tourism.rows, g[i].country)) as real)
    {
      GovernanceAcrossSectors(aviation.rows, tourism.rows, g[i].country, score);
    }
  }
}

=== FILE: scoring.dfy ===
/**
 * The additive readiness score of scripts/scoring.py: `score_entry` and the
 * table-level `compute_scores` (outer join on (country, year), median split of
 * passenger volume into HIGH/LOW, AI index lookup, two scored rows per key).
 */
module Scoring {
  import opened Wrappers
  import opened TextOrder
  import opened Sorting
  import opened Statistics

  // ---------------------------------------------------------------------
  // score_entry
  // ---------------------------------------------------------------------

  /** The three keys `score_entry` reads from its dict; an absent key is `None`. */
  datatype Entry = Entry(governanceFlag: Option<string>, aiProcurementIndex: Option<real>, sector: Option<string>)

  const GovernanceBonus: int := 30
  const AiIndexBonus: int := 40
  const SectorBonus: int := 20
  const AiIndexThreshold: real := 0.7

  /** Only the exact spellings 'High' and 'HIGH' qualify. */
  predicate EarnsGovernanceBonus(e: Entry) {
    e.governanceFlag == Some("High") || e.governanceFlag == Some("HIGH")
  }

  /** A missing index reads as 0; the comparison is strict. */
  predicate EarnsAiIndexBonus(e: Entry) {
    e.aiProcurementIndex.GetOr(0.0) > AiIndexThreshold
  }

  /** Only 'Aviation' and 'Tourism' qualify. */
  predicate EarnsSectorBonus(e: Entry) {
    e.sector == Some("Aviation") || e.sector == Some("Tourism")
  }

  function ScoreEntry(e: Entry): (score: int)
    ensures 0 <= score <= 90
    ensures score == 90 <==> EarnsGovernanceBonus(e) && EarnsAiIndexBonus(e) && EarnsSectorBonus(e)
    ensures score == 0 <==> !EarnsGovernanceBonus(e) && !EarnsAiIndexBonus(e) && !EarnsSectorBonus(e)
  {
    var governance := if EarnsGovernanceBonus(e) then GovernanceBonus else 0;
    var index := if EarnsAiIndexBonus(e) then AiIndexBonus else 0;
    var sector := if EarnsSectorBonus(e) then SectorBonus else 0;
    governance + index + sector
  }

  /**
   * The bonuses are independent and can be read back from the score: each
   * of the eight combinations gives a different total.
   */
  lemma BonusesRecoverableFromScore(e: Entry)
    ensures EarnsGovernanceBonus(e) <==> ScoreEntry(e) in {30, 50, 70, 90}
    ensures EarnsAiIndexBonus(e) <==> ScoreEntry(e) in {40, 60, 70, 90}
    ensures EarnsSectorBonus(e) <==> ScoreEntry(e) in {20, 50, 60, 90}
  {
  }

  /** Near misses earn nothing: lower-case 'high', an index of exactly 0.7, 'Tourism & Hospitality'. */
  lemma ConditionsAreStrict(e: Entry)
    ensures e.governanceFlag == Some("high") ==> !EarnsGovernanceBonus(e)
    ensures e.aiProcurementIndex == Some(0.7) ==> !EarnsAiIndexBonus(e)
    ensures e.aiProcurementIndex == None ==> !EarnsAiIndexBonus(e)
    ensures e.sector == Some("Tourism & Hospitality") ==> !EarnsSectorBonus(e)
  {
  }

  // ---------------------------------------------------------------------
  // compute_scores: outer join on (country, year)
  // ---------------------------------------------------------------------

  /** The join key (country, year). */
  datatype CountryYear = CountryYear(country: string, year: int)

  /** pandas' lexicographic order on the join keys (country, then year). */
  predicate KeyLess(a: CountryYear, b: CountryYear) {
    LexLess(a.country, b.country) || (a.country == b.country && a.year < b.year)
  }

  lemma KeyLessStrictTotal(ks: set<CountryYear>)
    ensures StrictTotalOn(KeyLess, ks)
  {
    forall a | a in ks ensures !KeyLess(a, a) {
      LexLessIrreflexive(a.country);
    }
    forall a, b | a in ks && b in ks && a != b ensures KeyLess(a, b) || KeyLess(b, a) {
      if a.country != b.country {
        LexLessTotal(a.country, b.country);
      }
    }
    forall a, b, c | a in ks && b in ks && c in ks && KeyLess(a, b) && KeyLess(b, c)
      ensures KeyLess(a, c)
    {
      if LexLess(a.country, b.country) && LexLess(b.country, c.country) {
        LexLessTransitive(a.country, b.country, c.country);
      }
    }
  }

  /** A row of the passenger, cargo, tourism or AI-index table: a key and one measure. */
  datatype Observation = Observation(country: string, year: int, value: real) {
    function Key(): CountryYear {
      CountryYear(country, year)
    }
  }

  /** No (country, year) occurs twice in the table. */
  predicate UniqueKeys(t: seq<Observation>) {
    forall i, j :: 0 <= i < j < |t| ==> t[i].Key() != t[j].Key()
  }

  function Keys(t: seq<Observation>): (ks: seq<CountryYear>)
    ensures |ks| == |t|
    ensures forall i :: 0 <= i < |t| ==> ks[i] == t[i].Key()
  {
    if |t| == 0 then [] else [t[0].Key()] + Keys(t[1..])
  }

  /** The measure recorded for `k`, if any row has that key. */
  function ValueFor(t: seq<Observation>, k: CountryYear): (v: Option<real>)
    ensures v.Some? <==> k in Keys(t)
  {
    if |t| == 0 then None
    else if t[0].Key() == k then Some(t[0].value)
    else ValueFor(t[1..], k)
  }

  /** With unique keys, a row's own measure is the one found for its key. */
  lemma {:induction false} ValueForRow(t: seq<Observation>, i: nat)
    requires UniqueKeys(t) && i < |t|
    ensures ValueFor(t, t[i].Key()) == Some(t[i].value)
    decreases i
  {
    if i > 0 {
      assert t[0].Key() != t[i].Key();
      assert UniqueKeys(t[1..]);
      ValueForRow(t[1..], i - 1);
    }
  }

  /** One row of the merged table; a measure absent from its table is filled with 0. */
  datatype MergedRow = MergedRow(country: string, year: int, passengerVolume: real, cargoTonnage: real, inboundTourists: real) {
    function Key(): CountryYear {
      CountryYear(country, year)
    }
  }

  /** The keys of the full outer join, in pandas' sorted order. */
  function MergedKeys(passenger: seq<Observation>, cargo: seq<Observation>, tourism: seq<Observation>): (ks: seq<CountryYear>)
    ensures StrictlySorted(KeyLess, ks)
    ensures Elements(ks) == Elements(Keys(passenger)) + Elements(Keys(cargo)) + Elements(Keys(tourism))
  {
    var all := Keys(passenger) + Keys(cargo) + Keys(tourism);
    KeyLessStrictTotal(Elements(all));
    var ks := SortUnique(KeyLess, all);
    ElementsConcat(Keys(passenger) + Keys(cargo), Keys(tourism));
    ElementsConcat(Keys(passenger), Keys(cargo));
    ks
  }

  /** The merged row for `k`, each measure taken from its table or filled with 0. */
  function MergedRowFor(passenger: seq<Observation>, cargo: seq<Observation>, tourism: seq<Observation>,
                        k: CountryYear): (r: MergedRow)
    ensures r.Key() == k
    ensures k !in Keys(passenger) ==> r.passengerVolume == 0.0
    ensures k !in Keys(cargo) ==> r.cargoTonnage == 0.0
    ensures k !in Keys(tourism) ==> r.inboundTourists == 0.0
    ensures k in Keys(passenger) ==> ValueFor(passenger, k) == Some(r.passengerVolume)
    ensures k in Keys(cargo) ==> ValueFor(cargo, k) == Some(r.cargoTonnage)
    ensures k in Keys(tourism) ==> ValueFor(tourism, k) == Some(r.inboundTourists)
  {
    MergedRow(k.country, k.year,
              ValueFor(passenger, k).GetOr(0.0),
              ValueFor(cargo, k).GetOr(0.0),
              ValueFor(tourism, k).GetOr(0.0))
  }

  /** `passenger_df.merge(cargo_df, how='outer').merge(tourism_df, how='outer')` followed by `fillna(0)`. */
  function OuterJoin(passenger: seq<Observation>, cargo: seq<Observation>, tourism: seq<Observation>): (m: seq<MergedRow>)
    ensures |m| == |MergedKeys(passenger, cargo, tourism)|
    ensures forall i :: 0 <= i < |m| ==> m[i].Key() == MergedKeys(passenger, cargo, tourism)[i]
    ensures forall i :: 0 <= i < |m| ==>
      && (m[i].Key() !in Keys(passenger) ==> m[i].passengerVolume == 0.0)
      && (m[i].Key() !in Keys(cargo) ==> m[i].cargoTonnage == 0.0)
      && (m[i].Key() !in Keys(tourism) ==> m[i].inboundTourists == 0.0)
  {
    var ks := MergedKeys(passenger, cargo, tourism);
    seq(|ks|, i requires 0 <= i < |ks| => MergedRowFor(passenger, cargo, tourism, ks[i]))
  }

  /** A merged row whose key is present in an input table carries that table's measure. */
  lemma OuterJoinCarriesMeasures(passenger: seq<Observation>, cargo: seq<Observation>, tourism: seq<Observation>)
    ensures var m := OuterJoin(passenger, cargo, tourism);
      forall i :: 0 <= i < |m| ==>
        && (m[i].Key() in Keys(passenger) ==> ValueFor(passenger, m[i].Key()) == Some(m[i].passengerVolume))
        && (m[i].Key() in Keys(cargo) ==> ValueFor(cargo, m[i].Key()) == Some(m[i].cargoTonnage))
        && (m[i].Key() in Keys(tourism) ==> ValueFor(tourism, m[i].Key()) == Some(m[i].inboundTourists))
  {
    var m := OuterJoin(passenger, cargo, tourism);
    var ks := MergedKeys(passenger, cargo, tourism);
    forall i | 0 <= i < |m|
      ensures m[i] == MergedRowFor(passenger, cargo, tourism, ks[i])
    {
    }
  }

  /** Every merged key comes from one of the three tables. */
  lemma MergedKeyFromSomeTable(passenger: seq<Observation>, cargo: seq<Observation>, tourism: seq<Observation>)
    ensures var m := OuterJoin(passenger, cargo, tourism);
      forall i :: 0 <= i < |m| ==>
        m[i].Key() in Keys(passenger) || m[i].Key() in Keys(cargo) || m[i].Key() in Keys(tourism)
  {
    var m := OuterJoin(passenger, cargo, tourism);
    var ks := MergedKeys(passenger, cargo, tourism);
    forall i | 0 <= i < |m|
      ensures m[i].Key() in Keys(passenger) || m[i].Key() in Keys(cargo) || m[i].Key() in Keys(tourism)
    {
      assert ks[i] in Elements(ks);
    }
  }

  /**
   * Every key of any input table appears exactly once in the merged table,
   * carrying that table's measure; nothing else appears.
   */
  lemma OuterJoinKeepsEveryRow(passenger: seq<Observation>, cargo: seq<Observation>, tourism: seq<Observation>)
    requires UniqueKeys(passenger)
    ensures var m := OuterJoin(passenger, cargo, tourism);
      && (forall i, j :: 0 <= i < j < |m| ==> m[i].Key() != m[j].Key())
      && (forall i :: 0 <= i < |passenger| ==>
            exists j :: 0 <= j < |m| && m[j].Key() == passenger[i].Key() && m[j].passengerVolume == passenger[i].value)
  {
    var m := OuterJoin(passenger, cargo, tourism);
    var ks := MergedKeys(passenger, cargo, tourism);
    OuterJoinCarriesMeasures(passenger, cargo, tourism);
    KeyLessStrictTotal(Elements(ks));
    StrictlySortedDistinct(KeyLess, ks);
    forall i | 0 <= i < |passenger|
      ensures exists j :: 0 <= j < |m| && m[j].Key() == passenger[i].Key() && m[j].passengerVolume == passenger[i].value
    {
      var k := passenger[i].Key();
      assert Keys(passenger)[i] == k;
      assert k in Elements(Keys(passenger));
      assert k in Elements(ks);
      var j :| 0 <= j < |ks| && ks[j] == k;
      ValueForRow(passenger, i);
      assert m[j].Key() == k && m[j].passengerVolume == passenger[i].value;
    }
  }

  /** The position of a key of any input table in the merged table. */
  lemma PositionInJoin(passenger: seq<Observation>, cargo: seq<Observation>, tourism: seq<Observation>, k: CountryYear)
    returns (j: nat)
    requires k in Keys(passenger) || k in Keys(cargo) || k in Keys(tourism)
    ensures j < |OuterJoin(passenger, cargo, tourism)| && OuterJoin(passenger, cargo, tourism)[j].Key() == k
  {
    var ks := MergedKeys(passenger, cargo, tourism);
    assert k in Elements(ks);
    j :| 0 <= j < |ks| && ks[j] == k;
  }

  /** Every cargo and every tourism row appears in the merged table with its own measure. */
  lemma OuterJoinKeepsCargoAndTourismRows(passenger: seq<Observation>, cargo: seq<Observation>, tourism: seq<Observation>)
    requires UniqueKeys(cargo) && UniqueKeys(tourism)
    ensures var m := OuterJoin(passenger, cargo, tourism);
      && (forall i :: 0 <= i < |cargo| ==>
            exists j :: 0 <= j < |m| && m[j].Key() == cargo[i].Key() && m[j].cargoTonnage == cargo[i].value)
      && (forall i :: 0 <= i < |tourism| ==>
            exists j :: 0 <= j < |m| && m[j].Key() == tourism[i].Key() && m[j].inboundTourists == tourism[i].value)
  {
    var m := OuterJoin(passenger, cargo, tourism);
    OuterJoinCarriesMeasures(passenger, cargo, tourism);
    forall i | 0 <= i < |cargo|
      ensures exists j :: 0 <= j < |m| && m[j].Key() == cargo[i].Key() && m[j].cargoTonnage == cargo[i].value
    {
      assert Keys(cargo)[i] == cargo[i].Key();
      var j := PositionInJoin(passenger, cargo, tourism, cargo[i].Key());
      ValueForRow(cargo, i);
      assert m[j].cargoTonnage == cargo[i].value;
    }
    forall i | 0 <= i < |tourism|
      ensures exists j :: 0 <= j < |m| && m[j].Key() == tourism[i].Key() && m[j].inboundTourists == tourism[i].value
    {
      assert Keys(tourism)[i] == tourism[i].Key();
      var j := PositionInJoin(passenger, cargo, tourism, tourism[i].Key());
      ValueForRow(tourism, i);
      assert m[j].inboundTourists == tourism[i].value;
    }
  }

  /** A country-year known only from tourism data is merged with no passengers and no cargo. */
  lemma TourismOnlyKeyIsZeroFilled(passenger: seq<Observation>, cargo: seq<Observation>, tourism: seq<Observation>)
    ensures var m := OuterJoin(passenger, cargo, tourism);
      forall i :: 0 <= i < |m| && m[i].Key() !in Keys(passenger) && m[i].Key() !in Keys(cargo) ==>
        m[i].Key() in Keys(tourism) && m[i].passengerVolume == 0.0 && m[i].cargoTonnage == 0.0
  {
    MergedKeyFromSomeTable(passenger, cargo, tourism);
  }

  // ---------------------------------------------------------------------
  // compute_scores: governance flag by median split
  // ---------------------------------------------------------------------

  const High: string := "HIGH"
  const Low: string := "LOW"

  function PassengerVolumes(m: seq<MergedRow>): (vs: seq<real>)
    ensures |vs| == |m|
    ensures forall i :: 0 <= i < |m| ==> vs[i] == m[i].passengerVolume
  {
    seq(|m|, i requires 0 <= i < |m| => m[i].passengerVolume)
  }

  /** HIGH when the volume strictly exceeds the median; a comparison with NaN (no rows) is false. */
  function GovernanceFlag(volume: real, median: Option<real>): (flag: string)
    ensures flag == High || flag == Low
    ensures flag == High <==> median.Some? && volume > median.value
  {
    if median.Some? && volume > median.value then High else Low
  }

  datatype GovernanceRow = GovernanceRow(country: string, year: int, governanceFlag: string)

  function GovernanceTable(m: seq<MergedRow>): (g: seq<GovernanceRow>)
    ensures |g| == |m|
    ensures forall i :: 0 <= i < |m| ==>
      && g[i].country == m[i].country && g[i].year == m[i].year
      && (g[i].governanceFlag == High <==> m[i].passengerVolume > Median(PassengerVolumes(m)).value)
      && (g[i].governanceFlag == High || g[i].governanceFlag == Low)
  {
    var median := Median(PassengerVolumes(m));
    seq(|m|, i requires 0 <= i < |m| => GovernanceRow(m[i].country, m[i].year, GovernanceFlag(m[i].passengerVolume, median)))
  }

  function CountHigh(g: seq<GovernanceRow>): nat {
    if |g| == 0 then 0 else (if g[0].governanceFlag == High then 1 else 0) + CountHigh(g[1..])
  }

  lemma {:induction false} CountHighIsCountAbove(g: seq<GovernanceRow>, vs: seq<real>, median: real)
    requires |g| == |vs|
    requires forall i :: 0 <= i < |g| ==> (g[i].governanceFlag == High <==> vs[i] > median)
    ensures CountHigh(g) == CountAbove(vs, median)
    decreases |g|
  {
    if |g| > 0 {
      CountHighIsCountAbove(g[1..], vs[1..], median);
    }
  }

  /** The threshold is relative: at most half of the merged rows are HIGH. */
  lemma AtMostHalfHigh(m: seq<MergedRow>)
    ensures 2 * CountHigh(GovernanceTable(m)) <= |m|
  {
    if |m| > 0 {
      var vs := PassengerVolumes(m);
      var median := Median(vs).value;
      CountHighIsCountAbove(GovernanceTable(m), vs, median);
      MedianSplitsInHalf(vs);
    }
  }

  /** When every merged row has the same passenger volume, every row is LOW. */
  lemma EqualVolumesAllLow(m: seq<MergedRow>, v: real)
    requires forall i :: 0 <= i < |m| ==> m[i].passengerVolume == v
    ensures forall i :: 0 <= i < |m| ==> GovernanceTable(m)[i].governanceFlag == Low
  {
    if |m| > 0 {
      MedianOfConstant(PassengerVolumes(m), v);
    }
  }

  // ---------------------------------------------------------------------
  // compute_scores: AI index and scored rows
  // ---------------------------------------------------------------------

  const DefaultAiIndex: real := 0.5

  /** Left join of the optional AI-index table, unmatched keys filled with 0.5. */
  function AiIndexFor(ai: Option<seq<Observation>>, k: CountryYear): (index: real)
    ensures ai.None? ==> index == DefaultAiIndex
    ensures ai.Some? && k !in Keys(ai.value) ==> index == DefaultAiIndex
  {
    match ai
    case None => DefaultAiIndex
    case Some(t) => ValueFor(t, k).GetOr(DefaultAiIndex)
  }

  /** A key present in the AI-index table gets that table's value, not the default. */
  lemma AiIndexFromTable(ai: seq<Observation>, i: nat)
    requires UniqueKeys(ai) && i < |ai|
    ensures AiIndexFor(Some(ai), ai[i].Key()) == ai[i].value
  {
    ValueForRow(ai, i);
  }

  datatype OpportunityRow = OpportunityRow(country: string, year: int, sector: string, procurementReadinessScore: int)

  /** A merged row after classification and the AI-index join. */
  datatype ScoredRow = ScoredRow(country: string, year: int, governanceFlag: string, aiProcurementIndex: real)

  function SectorRow(r: ScoredRow, sector: string): OpportunityRow {
    OpportunityRow(r.country, r.year, sector,
                   ScoreEntry(Entry(Some(r.governanceFlag), Some(r.aiProcurementIndex), Some(sector))))
  }

  /** Both sector rows of a scored row get the sector bonus and the same total. */
  predicate SectorScores(r: ScoredRow) {
    var score := SectorBonus
                 + (if r.governanceFlag == High then GovernanceBonus else 0)
                 + (if r.aiProcurementIndex > AiIndexThreshold then AiIndexBonus else 0);
    SectorRow(r, "Aviation").procurementReadinessScore == score
    && SectorRow(r, "Tourism").procurementReadinessScore == score
  }

  lemma SectorRowScores(r: ScoredRow)
    requires r.governanceFlag == High || r.governanceFlag == Low
    ensures SectorScores(r)
  {
  }

  /** The loop over merged rows: an Aviation record, then a Tourism record, for each row. */
  function Opportunities(rs: seq<ScoredRow>): (o: seq<OpportunityRow>)
    ensures |o| == 2 * |rs|
    ensures forall i :: 0 <= i < |rs| ==> o[2 * i] == SectorRow(rs[i], "Aviation") && o[2 * i + 1] == SectorRow(rs[i], "Tourism")
  {
    if |rs| == 0 then []
    else
      var rest := Opportunities(rs[1..]);
      var o := [SectorRow(rs[0], "Aviation"), SectorRow(rs[0], "Tourism")] + rest;
      assert forall i :: 1 <= i < |rs| ==> o[2 * i] == SectorRow(rs[i], "Aviation") && o[2 * i + 1] == SectorRow(rs[i], "Tourism") by {
        forall i | 1 <= i < |rs|
          ensures o[2 * i] == SectorRow(rs[i], "Aviation") && o[2 * i + 1] == SectorRow(rs[i], "Tourism")
        {
          var k := 2 * (i - 1);
          assert o[k + 2] == rest[k] && o[k + 3] == rest[k + 1];
          assert rs[1..][i - 1] == rs[i];
        }
      }
      o
  }

  datatype Scores = Scores(governance: seq<GovernanceRow>, opportunity: seq<OpportunityRow>)

  /** Every row of the merged table scored: what `compute_scores` does after the merge. */
  function ScoreMerged(m: seq<MergedRow>, ai: Option<seq<Observation>>): (r: Scores)
    ensures |r.governance| == |m| && |r.opportunity| == 2 * |m|
    ensures forall i :: 0 <= i < |m| ==>
      && r.governance[i].country == m[i].country && r.governance[i].year == m[i].year
      && (r.governance[i].governanceFlag == High <==> m[i].passengerVolume > Median(PassengerVolumes(m)).value)
    ensures forall i :: 0 <= i < |m| ==>
      && r.opportunity[2 * i].sector == "Aviation" && r.opportunity[2 * i + 1].sector == "Tourism"
      && r.opportunity[2 * i].country == m[i].country && r.opportunity[2 * i + 1].country == m[i].country
      && r.opportunity[2 * i].year == m[i].year && r.opportunity[2 * i + 1].year == m[i].year
    ensures forall i :: 0 <= i < |m| ==>
      && r.opportunity[2 * i].procurementReadinessScore == r.opportunity[2 * i + 1].procurementReadinessScore
      && r.opportunity[2 * i].procurementReadinessScore
         == SectorBonus
            + (if r.governance[i].governanceFlag == High then GovernanceBonus else 0)
            + (if AiIndexFor(ai, m[i].Key()) > AiIndexThreshold then AiIndexBonus else 0)
  {
    var governance := GovernanceTable(m);
    var scored := seq(|m|, i requires 0 <= i < |m| =>
      ScoredRow(m[i].country, m[i].year, governance[i].governanceFlag, AiIndexFor(ai, m[i].Key())));
    var opportunity := Opportunities(scored);
    forall i | 0 <= i < |m|
      ensures opportunity[2 * i].procurementReadinessScore == opportunity[2 * i + 1].procurementReadinessScore
      ensures opportunity[2 * i].procurementReadinessScore
              == SectorBonus
                 + (if governance[i].governanceFlag == High then GovernanceBonus else 0)
                 + (if AiIndexFor(ai, m[i].Key()) > AiIndexThreshold then AiIndexBonus else 0)
    {
      SectorRowScores(scored[i]);
    }
    Scores(governance, opportunity)
  }

  /**
   * `compute_scores`: merge, classify, score. Each merged key gets one
   * governance row and an Aviation and a Tourism opportunity row, in the
   * merged order.
   */
  function ComputeScores(passenger: seq<Observation>, cargo: seq<Observation>, tourism: seq<Observation>,
                         ai: Option<seq<Observation>>): (r: Scores)
    requires UniqueKeys(passenger) && UniqueKeys(cargo) && UniqueKeys(tourism)
    requires ai.Some? ==> UniqueKeys(ai.value)
    ensures var m := OuterJoin(passenger, cargo, tourism);
      |r.governance| == |m| && |r.opportunity| == 2 * |m|
    ensures var m := OuterJoin(passenger, cargo, tourism);
      forall i :: 0 <= i < |m| ==>
        && r.governance[i].country == m[i].country && r.governance[i].year == m[i].year
        && (r.governance[i].governanceFlag == High <==> m[i].passengerVolume > Median(PassengerVolumes(m)).value)
    ensures var m := OuterJoin(passenger, cargo, tourism);
      forall i :: 0 <= i < |m| ==>
        && r.opportunity[2 * i].sector == "Aviation" && r.opportunity[2 * i + 1].sector == "Tourism"
        && r.opportunity[2 * i].country == m[i].country && r.opportunity[2 * i + 1].country == m[i].country
        && r.opportunity[2 * i].year == m[i].year && r.opportunity[2 * i + 1].year == m[i].year
    ensures var m := OuterJoin(passenger, cargo, tourism);
      forall i :: 0 <= i < |m| ==>
        && r.opportunity[2 * i].procurementReadinessScore == r.opportunity[2 * i + 1].procurementReadinessScore
        && r.opportunity[2 * i].procurementReadinessScore
           == SectorBonus
              + (if r.governance[i].governanceFlag == High then GovernanceBonus else 0)
              + (if AiIndexFor(ai, m[i].Key()) > AiIndexThreshold then AiIndexBonus else 0)
  {
    ScoreMerged(OuterJoin(passenger, cargo, tourism), ai)
  }

  /** Without an AI-index table every index is 0.5, so no row earns the index bonus. */
  lemma NoAiTableNoIndexBonus(passenger: seq<Observation>, cargo: seq<Observation>, tourism: seq<Observation>)
    requires UniqueKeys(passenger) && UniqueKeys(cargo) && UniqueKeys(tourism)
    ensures var r := ComputeScores(passenger, cargo, tourism, None);
      forall j :: 0 <= j < |r.opportunity| ==> r.opportunity[j].procurementReadinessScore in {20, 50}
  {
    NoIndexBonusWithoutTable(OuterJoin(passenger, cargo, tourism));
  }

  lemma NoIndexBonusWithoutTable(m: seq<MergedRow>)
    ensures var r := ScoreMerged(m, None);
      forall j :: 0 <= j < |r.opportunity| ==> r.opportunity[j].procurementReadinessScore in {20, 50}
  {
    var r := ScoreMerged(m, None);
    assert forall i :: 0 <= i < |m| ==> AiIndexFor(None, m[i].Key()) == DefaultAiIndex;
    PairScoresWithoutIndexBonus(r.opportunity, r.governance);
  }

  /** Pairs scored 20 plus an optional 30 only ever score 20 or 50. */
  lemma PairScoresWithoutIndexBonus(o: seq<OpportunityRow>, g: seq<GovernanceRow>)
    requires |o| == 2 * |g|
    requires forall i :: 0 <= i < |g| ==>
      && o[2 * i].procurementReadinessScore == o[2 * i + 1].procurementReadinessScore
      && o[2 * i].procurementReadinessScore == SectorBonus + (if g[i].governanceFlag == High then GovernanceBonus else 0)
    ensures forall j :: 0 <= j < |o| ==> o[j].procurementReadinessScore in {20, 50}
  {
    forall j | 0 <= j < |o| ensures o[j].procurementReadinessScore in {20, 50} {
      var i := j / 2;
      assert 0 <= i < |g|;
      var score := o[2 * i].procurementReadinessScore;
      assert score == SectorBonus + (if g[i].governanceFlag == High then GovernanceBonus else 0);
      assert j == 2 * i || j == 2 * i + 1;
    }
  }
}

=== FILE: sorting.dfy ===
/**
 * Sorting with duplicates removed, as `sorted(set(...))` does for country
 * names and as pandas' outer merge does for its join keys. The order is a
 * parameter; it only has to be a strict total order on the elements sorted.
 */
module Sorting {

  function Elements<T>(s: seq<T>): set<T> {
    set x | x in s
  }

  /** Every element strictly precedes every later one (so no duplicates). */
  predicate StrictlySorted<T>(less: (T, T) -> bool, s: seq<T>) {
    forall i, j :: 0 <= i < j < |s| ==> less(s[i], s[j])
  }

  /** `less` is irreflexive, total and transitive on `xs`. */
  ghost predicate StrictTotalOn<T>(less: (T, T) -> bool, xs: set<T>) {
    && (forall a :: a in xs ==> !less(a, a))
    && (forall a, b :: a in xs && b in xs && a != b ==> less(a, b) || less(b, a))
    && (forall a, b, c :: a in xs && b in xs && c in xs && less(a, b) && less(b, c) ==> less(a, c))
  }

  lemma ElementsConcat<T>(a: seq<T>, b: seq<T>)
    ensures Elements(a + b) == Elements(a) + Elements(b)
  {
    assert forall y :: y in a + b <==> y in a || y in b;
  }

  /** The head of a strictly sorted sequence precedes everything after it. */
  lemma HeadPrecedesTail<T>(less: (T, T) -> bool, s: seq<T>)
    requires StrictlySorted(less, s) && |s| > 0
    ensures forall y :: y in Elements(s[1..]) ==> less(s[0], y)
  {
    forall y | y in Elements(s[1..]) ensures less(s[0], y) {
      var k :| 0 <= k < |s| - 1 && s[1..][k] == y;
      assert s[k + 1] == y;
    }
  }

  /** Dropping the head of a strictly sorted sequence removes exactly that element. */
  lemma TailElements<T>(less: (T, T) -> bool, s: seq<T>)
    requires StrictTotalOn(less, Elements(s))
    requires StrictlySorted(less, s) && |s| > 0
    ensures Elements(s[1..]) == Elements(s) - {s[0]}
  {
    HeadPrecedesTail(less, s);
    assert s[0] in Elements(s);
    assert s == [s[0]] + s[1..];
  }

  /** Adds `x` to a strictly sorted sequence unless it is already there. */
  function InsertUnique<T(==)>(less: (T, T) -> bool, x: T, s: seq<T>): (r: seq<T>)
    requires StrictTotalOn(less, Elements(s) + {x})
    requires StrictlySorted(less, s)
    ensures StrictlySorted(less, r)
    ensures Elements(r) == Elements(s) + {x}
  {
    if |s| == 0 then [x]
    else if x == s[0] then s
    else if less(x, s[0]) then
      assert forall j :: 0 <= j < |s| ==> less(x, s[j]) by {
        forall j | 0 <= j < |s| ensures less(x, s[j]) {
          assert s[0] in Elements(s) && s[j] in Elements(s);
        }
      }
      [x] + s
    else
      assert less(s[0], x) by {
        assert s[0] in Elements(s);
      }
      assert StrictTotalOn(less, Elements(s[1..]) + {x}) by {
        assert Elements(s[1..]) + {x} <= Elements(s) + {x};
      }
      HeadPrecedesTail(less, s);
      var rest := InsertUnique(less, x, s[1..]);
      assert forall j :: 0 <= j < |rest| ==> less(s[0], rest[j]) by {
        forall j | 0 <= j < |rest| ensures less(s[0], rest[j]) {
          assert rest[j] in Elements(rest);
        }
      }
      assert s == [s[0]] + s[1..];
      ElementsConcat([s[0]], s[1..]);
      ElementsConcat([s[0]], rest);
      [s[0]] + rest
  }

  /** The distinct elements of `xs` in ascending order. */
  function SortUnique<T(==)>(less: (T, T) -> bool, xs: seq<T>): (r: seq<T>)
    requires StrictTotalOn(less, Elements(xs))
    ensures StrictlySorted(less, r)
    ensures Elements(r) == Elements(xs)
  {
    if |xs| == 0 then []
    else
      assert StrictTotalOn(less, Elements(xs[1..])) by {
        assert Elements(xs[1..]) <= Elements(xs);
      }
      var rest := SortUnique(less, xs[1..]);
      assert Elements(rest) + {xs[0]} == Elements(xs) by {
        assert xs == [xs[0]] + xs[1..];
      }
      InsertUnique(less, xs[0], rest)
  }

  /** A strictly sorted sequence is determined by its elements. */
  lemma {:induction false} StrictlySortedUnique<T>(less: (T, T) -> bool, a: seq<T>, b: seq<T>)
    requires StrictTotalOn(less, Elements(a))
    requires StrictlySorted(less, a) && StrictlySorted(less, b)
    requires Elements(a) == Elements(b)
    ensures a == b
    decreases |a|
  {
    assert |b| > 0 ==> b[0] in Elements(b);
    if |a| > 0 {
      assert a[0] in Elements(a);
      HeadPrecedesTail(less, a);
      HeadPrecedesTail(less, b);
      assert a == [a[0]] + a[1..] && b == [b[0]] + b[1..];
      assert a[0] == b[0];
      TailElements(less, a);
      TailElements(less, b);
      assert StrictTotalOn(less, Elements(a[1..])) by {
        assert Elements(a[1..]) <= Elements(a);
      }
      StrictlySortedUnique(less, a[1..], b[1..]);
    }
  }

  /** Under a strict order, strict sortedness means no element repeats. */
  lemma StrictlySortedDistinct<T>(less: (T, T) -> bool, s: seq<T>)
    requires StrictTotalOn(less, Elements(s))
    requires StrictlySorted(less, s)
    ensures forall i, j :: 0 <= i < j < |s| ==> s[i] != s[j]
  {
    forall i, j | 0 <= i < j < |s| ensures s[i] != s[j] {
      assert s[i] in Elements(s);
    }
  }
}

=== FILE: statistics.dfy ===
/**
 * `Series.median()` over real numbers: the middle element of the sorted
 * values, or the mean of the two middle ones for an even count; NaN (here
 * `None`) for no values.
 */
module Statistics {
  import opened Wrappers

  predicate Ascending(s: seq<real>) {
    forall i, j :: 0 <= i < j < |s| ==> s[i] <= s[j]
  }

  /** No element of `t` is below `lo`. */
  predicate AtLeast(lo: real, t: seq<real>) {
    forall j :: 0 <= j < |t| ==> lo <= t[j]
  }

  /** A lower bound depends only on the values, not on their order. */
  lemma AtLeastPermutation(lo: real, a: seq<real>, b: seq<real>)
    requires multiset(a) == multiset(b) && AtLeast(lo, b)
    ensures AtLeast(lo, a)
  {
    forall j | 0 <= j < |a| ensures lo <= a[j] {
      assert a[j] in multiset(b);
      var k :| 0 <= k < |b| && b[k] == a[j];
    }
  }

  /** Putting a lower bound in front of an ascending sequence keeps it ascending. */
  lemma AscendingCons(h: real, t: seq<real>)
    requires Ascending(t) && AtLeast(h, t)
    ensures Ascending([h] + t)
  {
    var r := [h] + t;
    forall i, j | 0 <= i < j < |r| ensures r[i] <= r[j] {
      assert r[j] == t[j - 1];
      if i > 0 {
        assert r[i] == t[i - 1];
      }
    }
  }

  function Insert(x: real, s: seq<real>): (r: seq<real>)
    requires Ascending(s)
    ensures Ascending(r)
    ensures multiset(r) == multiset(s) + multiset{x}
  {
    if |s| == 0 || x <= s[0] then
      assert AtLeast(x, s) by {
        forall j | 0 <= j < |s| ensures x <= s[j] {
          assert s[0] <= s[j] || j == 0;
        }
      }
      AscendingCons(x, s);
      [x] + s
    else
      var tail := s[1..];
      assert s == [s[0]] + tail;
      var rest := Insert(x, tail);
      assert AtLeast(s[0], tail + [x]) by {
        var t := tail + [x];
        forall j | 0 <= j < |t| ensures s[0] <= t[j] {
          if j < |tail| {
            assert t[j] == s[j + 1];
          }
        }
      }
      AtLeastPermutation(s[0], rest, tail + [x]);
      AscendingCons(s[0], rest);
      [s[0]] + rest
  }

  function Sort(xs: seq<real>): (r: seq<real>)
    ensures Ascending(r)
    ensures multiset(r) == multiset(xs)
  {
    if |xs| == 0 then []
    else
      assert xs == [xs[0]] + xs[1..];
      Insert(xs[0], Sort(xs[1..]))
  }

  /** Sorting values that are already in ascending order leaves them as they are. */
  lemma {:induction false} SortAscending(xs: seq<real>)
    requires Ascending(xs)
    ensures Sort(xs) == xs
    decreases |xs|
  {
    if |xs| > 0 {
      SortAscending(xs[1..]);
      assert xs == [xs[0]] + xs[1..];
    }
  }

  /** The middle of an already sorted, non-empty sequence. */
  function Middle(s: seq<real>): real
    requires |s| > 0
  {
    var h := |s| / 2;
    if |s| % 2 == 1 then s[h] else (s[h - 1] + s[h]) / 2.0
  }

  function Median(xs: seq<real>): (m: Option<real>)
    ensures m.Some? <==> |xs| > 0
  {
    if |xs| == 0 then None
    else
      var s := Sort(xs);
      assert |s| == |multiset(s)| == |xs|;
      Some(Middle(s))
  }

  /** How many of `xs` lie strictly above `m`. */
  function CountAbove(xs: seq<real>, m: real): nat {
    if |xs| == 0 then 0 else (if xs[0] > m then 1 else 0) + CountAbove(xs[1..], m)
  }

  /** How many of `xs` lie strictly below `m`. */
  function CountBelow(xs: seq<real>, m: real): nat {
    if |xs| == 0 then 0 else (if xs[0] < m then 1 else 0) + CountBelow(xs[1..], m)
  }

  lemma {:induction false} CountsAppend(a: seq<real>, b: seq<real>, m: real)
    ensures CountAbove(a + b, m) == CountAbove(a, m) + CountAbove(b, m)
    ensures CountBelow(a + b, m) == CountBelow(a, m) + CountBelow(b, m)
    decreases |a|
  {
    if |a| == 0 {
      assert a + b == b;
    } else {
      assert (a + b)[0] == a[0];
      assert (a + b)[1..] == a[1..] + b;
      CountsAppend(a[1..], b, m);
    }
  }

  lemma {:induction false} CountsBounded(xs: seq<real>, m: real)
    ensures CountAbove(xs, m) <= |xs| && CountBelow(xs, m) <= |xs|
    decreases |xs|
  {
    if |xs| > 0 {
      CountsBounded(xs[1..], m);
    }
  }

  lemma {:induction false} CountAboveNone(xs: seq<real>, m: real)
    requires forall i :: 0 <= i < |xs| ==> xs[i] <= m
    ensures CountAbove(xs, m) == 0
    decreases |xs|
  {
    if |xs| > 0 {
      CountAboveNone(xs[1..], m);
    }
  }

  lemma {:induction false} CountBelowNone(xs: seq<real>, m: real)
    requires forall i :: 0 <= i < |xs| ==> m <= xs[i]
    ensures CountBelow(xs, m) == 0
    decreases |xs|
  {
    if |xs| > 0 {
      CountBelowNone(xs[1..], m);
    }
  }

  lemma {:induction false} CountsInsert(x: real, s: seq<real>, m: real)
    requires Ascending(s)
    ensures CountAbove(Insert(x, s), m) == CountAbove(s, m) + (if x > m then 1 else 0)
    ensures CountBelow(Insert(x, s), m) == CountBelow(s, m) + (if x < m then 1 else 0)
    decreases |s|
  {
    if |s| > 0 && x > s[0] {
      CountsInsert(x, s[1..], m);
    }
  }

  /** Sorting does not change how many values lie above or below a threshold. */
  lemma {:induction false} CountsSort(xs: seq<real>, m: real)
    ensures CountAbove(Sort(xs), m) == CountAbove(xs, m)
    ensures CountBelow(Sort(xs), m) == CountBelow(xs, m)
    decreases |xs|
  {
    if |xs| > 0 {
      CountsSort(xs[1..], m);
      CountsInsert(xs[0], Sort(xs[1..]), m);
    }
  }

  /** In ascending order, the values above `m` can only come after a prefix of values at most `m`. */
  lemma AboveAfterPrefix(s: seq<real>, m: real, k: nat)
    requires k <= |s|
    requires forall i :: 0 <= i < k ==> s[i] <= m
    ensures CountAbove(s, m) <= |s| - k
  {
    assert s == s[..k] + s[k..];
    CountAboveNone(s[..k], m);
    CountsAppend(s[..k], s[k..], m);
    CountsBounded(s[k..], m);
  }

  /** The values below `m` can only come before a suffix of values at least `m`. */
  lemma BelowBeforeSuffix(s: seq<real>, m: real, k: nat)
    requires k <= |s|
    requires forall i :: k <= i < |s| ==> m <= s[i]
    ensures CountBelow(s, m) <= k
  {
    assert s == s[..k] + s[k..];
    CountBelowNone(s[k..], m);
    CountsAppend(s[..k], s[k..], m);
    CountsBounded(s[..k], m);
  }

  /** The middle of sorted values splits them in half. */
  lemma MiddleSplitsInHalf(s: seq<real>)
    requires Ascending(s) && |s| > 0
    ensures 2 * CountAbove(s, Middle(s)) <= |s|
    ensures 2 * CountBelow(s, Middle(s)) <= |s|
  {
    var m := Middle(s);
    var h := |s| / 2;
    if |s| % 2 == 1 {
      assert |s| == 2 * h + 1;
      AboveAfterPrefix(s, m, h + 1);
      BelowBeforeSuffix(s, m, h);
    } else {
      assert |s| == 2 * h;
      assert s[h - 1] <= m <= s[h];
      AboveAfterPrefix(s, m, h);
      BelowBeforeSuffix(s, m, h);
    }
  }

  /**
   * The median splits the values in half: at most half lie strictly above
   * it and at most half strictly below it.
   */
  lemma MedianSplitsInHalf(xs: seq<real>)
    requires |xs| > 0
    ensures 2 * CountAbove(xs, Median(xs).value) <= |xs|
    ensures 2 * CountBelow(xs, Median(xs).value) <= |xs|
  {
    var s := Sort(xs);
    assert |s| == |multiset(s)| == |xs|;
    assert Median(xs).value == Middle(s);
    MiddleSplitsInHalf(s);
    CountsSort(xs, Middle(s));
  }

  /** When every value is the same, that value is the median. */
  lemma MedianOfConstant(xs: seq<real>, v: real)
    requires |xs| > 0
    requires forall i :: 0 <= i < |xs| ==> xs[i] == v
    ensures Median(xs) == Some(v)
  {
    var s := Sort(xs);
    assert |s| == |multiset(s)| == |xs|;
    forall i | 0 <= i < |s| ensures s[i] == v {
      assert s[i] in multiset(s);
      assert s[i] in multiset(xs);
    }
  }

  /**
   * The median lies between the smallest and the largest value, and for an
   * odd count it is one of the values.
   */
  lemma MedianWithinValues(xs: seq<real>)
    requires |xs| > 0
    ensures exists i :: 0 <= i < |xs| && xs[i] <= Median(xs).value
    ensures exists j :: 0 <= j < |xs| && Median(xs).value <= xs[j]
    ensures |xs| % 2 == 1 ==> Median(xs).value in xs
  {
    var s := Sort(xs);
    assert |s| == |multiset(s)| == |xs|;
    var m := Median(xs).value;
    var h := |s| / 2;
    assert s[h] in multiset(xs);
    var j :| 0 <= j < |xs| && xs[j] == s[h];
    if |s| % 2 == 1 {
      assert m == s[h];
    } else {
      assert s[h - 1] in multiset(xs);
      var i :| 0 <= i < |xs| && xs[i] == s[h - 1];
      assert s[h - 1] <= s[h];
      assert xs[i] <= m <= xs[j];
    }
  }

  /** The median is computed from the sorted values. */
  lemma MedianIsMiddleOfSorted(xs: seq<real>)
    requires |xs| > 0
    ensures Median(xs) == Some(Middle(Sort(xs)))
  {
  }

  /** Four ascending values have the mean of the inner two as their median. */
  lemma MedianOfFourAscending(s: seq<real>)
    requires |s| == 4 && Ascending(s)
    ensures Median(s) == Some((s[1] + s[2]) / 2.0)
  {
    SortAscending(s);
    MedianIsMiddleOfSorted(s);
  }

  /** The worked example of an even count: 10, 20, 30, 40 has median 25. */
  lemma MedianOfFourExample()
    ensures Median([10.0, 20.0, 30.0, 40.0]) == Some(25.0)
  {
    MedianOfFourAscending([10.0, 20.0, 30.0, 40.0]);
  }
}

=== FILE: text_order.dfy ===
/**
 * Python's ordering of `str` values: lexicographic by code point, a proper
 * prefix sorting before any of its extensions. `sorted` over country names
 * uses this order.
 */
module TextOrder {

  predicate LexLess(a: string, b: string)
    decreases |a|
  {
    if |a| == 0 then |b| > 0
    else if |b| == 0 then false
    else a[0] < b[0] || (a[0] == b[0] && LexLess(a[1..], b[1..]))
  }

  lemma {:induction false} LexLessIrreflexive(a: string)
    ensures !LexLess(a, a)
    decreases |a|
  {
    if |a| > 0 {
      LexLessIrreflexive(a[1..]);
    }
  }

  lemma {:induction false} LexLessTransitive(a: string, b: string, c: string)
    requires LexLess(a, b) && LexLess(b, c)
    ensures LexLess(a, c)
    decreases |a|
  {
    if |a| > 0 && a[0] == b[0] && b[0] == c[0] {
      LexLessTransitive(a[1..], b[1..], c[1..]);
    }
  }

  lemma {:induction false} LexLessTotal(a: string, b: string)
    requires a != b
    ensures LexLess(a, b) || LexLess(b, a)
    decreases |a|
  {
    if |a| > 0 && |b| > 0 && a[0] == b[0] {
      assert a == [a[0]] + a[1..] && b == [b[0]] + b[1..];
      LexLessTotal(a[1..], b[1..]);
    }
  }
}

=== FILE: wrappers.dfy ===
/** The optional value used wherever the Python code returns None or a value. */
module Wrappers {

  datatype Option<+T> = None | Some(value: T) {

    /** The wrapped value, or `default` when there is none. */
    function GetOr(default: T): T {
      match this
      case Some(v) => v
      case None => default
    }
  }
}
